=== FILE: README.md ===
# Google Meet plugin for StreamController: pairing, message gate and key actions

This project models the core of a StreamController plugin that lets deck keys drive
a Google Meet tab through a browser extension. The host side runs a local WebSocket
server. Browser instances pair with it by sending an EC P-256 public key. An operator
approves or denies each pairing. After that, every message must carry an ES256-signed
token that the host checks against the stored key. The key side renders toggle, status,
reaction and leave keys from the state the host has received.

The model is functional throughout. Each handler is a pure step from a value to a new
value plus a list of effects: replies sent, listeners notified, connections closed,
pictures and labels drawn.

- `PairingManager` (`pairing_manager.dfy`) covers the registry of *pending* and
  *authorized* records, keyed by (extension id, instance id). It has the request,
  approve, deny, revoke and age-based eviction transitions. The invariant is that the
  two maps stay disjoint and each record is filed under its own key. It also covers the
  `"ext:inst"` key encoding of the storage file and the file's load and save behaviour.
- `CryptoManager` (`crypto_manager.dfy`) is the structural check of an EC JSON Web Key,
  following section 6.2.1 of RFC 7518, and `verify_jws`. The JWT library is an oracle
  (`JwtLibrary`). The model writes out the order of PyJWT's decode: key, algorithm and
  signature first, then the claim checks that run before `exp`, then `exp`, then the rest.
  The `exp` check of section 4.1.4 of RFC 7519 is written out too. It converts the claim
  with Python's `int()` (`Json.IntOf`) and counts the token as expired when
  `int(exp) <= now`. Each failure is mapped to the host handler that catches it.
- `MeetsController` (`meets_controller.dfy`) holds the host's per-message decisions:
  - the ordered handshake checks;
  - the `_verify_message` gate;
  - the type-match check;
  - the field-by-field state merge;
  - approval bookkeeping;
  - revocation;
  - disconnect cleanup;
  - the `send_command` guard.

  The operator's answer and the 60-second timeout arrive as explicit events.
- `ImageManager` (`image_manager.dfy`) is the image cache. It keys pictures as
  `name__regular` and `name__disabled`. It stores both variants of a file, or only the
  colour one when the greyscale conversion fails, and initialises only once.
- `ActionBase` (`action_base.dfy`) holds what every key shares:
  - backend probes with their fallbacks;
  - connection-state derivation;
  - the choice of image variant;
  - render-only-on-change caching;
  - the approval rows of the settings page.
- `Mixins`, `ToggleStateAction`, `ParticipantCount`, `SendReaction`, `LeaveCall` and
  `InMeetingStatus` are the individual keys. `ToggleMic`, `ToggleCamera` and
  `RaiseHand` are constant configurations of `ToggleStateAction`.
- `Json` and `Wrappers` hold JSON values with Python truthiness, `dict.get` and a
  base-10 `int()`, and `Option`/`Result`.

A fresh mixin starts in `Unknown` (`Mixins.FreshMixin`). `ParticipantCount` and
`InMeetingStatus` do nothing on a key press, so no member models that.

Revoking an instance deletes its authorized record; it does not mark the record
revoked. Denying an instance only drops the pending entry, so a denied instance may
request pairing again.
The three defects listed under "## Findings" are modelled as written. These are
`LeaveCall.UpdateState`, `ParticipantCount.ShowDisconnected` (and so
`ParticipantCount.UpdateState`), and `MeetsController.RevokeInstance`. The corrected
behaviour is kept in separate members: `LeaveCall.UpdateStateIntended`,
`ParticipantCount.ShowDisconnectedIntended` and `MeetsController.RevokeInstanceIntended`.

## Model

| member | source | states |
|---|---|---|
| PairingManager.EmptyRegistryValid | backend/auth/pairing_manager.py:51-52 | a registry starting with no records satisfies the invariant: pending and authorized are disjoint, and every record sits under its own key |
| PairingManager.RequestPairing | backend/auth/pairing_manager.py:71-93 | an already authorized key gets its stored authorized record back and nothing changes; otherwise exactly the pending entry for the key is inserted or overwritten with a record stamped `now`, the authorized map is untouched, and the invariant is kept |
| PairingManager.ApproveInstance | backend/auth/pairing_manager.py:106-119 | answers True exactly when the key was pending; then the record moves from pending to authorized unchanged, every other entry is kept, and the invariant holds; otherwise nothing changes |
| PairingManager.DenyInstance | backend/auth/pairing_manager.py:132-144 | answers True exactly when the key was pending; it removes only that pending entry and never touches the authorized map |
| PairingManager.RevokeInstance | backend/auth/pairing_manager.py:157-169 | answers True exactly when the key was authorized; it deletes only that authorized record, and pending requests are untouched |
| PairingManager.IsAuthorized | backend/auth/pairing_manager.py:171-183 | an instance is authorized exactly when it has an authorized record; in a valid registry it is then not pending as well, and its record names it |
| PairingManager.GetPublicKey | backend/auth/pairing_manager.py:196-201 | a key is returned exactly for authorized instances, and it is the stored record's key |
| PairingManager.RevokeRemovesTrust | backend/auth/pairing_manager.py:157-201 | after a revocation the instance is not authorized and has no public key |
| PairingManager.DeniedInstanceMayAskAgain | backend/auth/pairing_manager.py:132-144 | after a denial the instance can request pairing again and is pending once more |
| PairingManager.AuthorizedKeyIsStable | backend/auth/pairing_manager.py:74-76 | a new pairing request from an authorized instance cannot replace the key it was approved with |
| PairingManager.GetAuthorizedInstances | backend/auth/pairing_manager.py:222-228 | the selection holds exactly the authorized records of the given extension, or all of them when no extension is given, unchanged |
| PairingManager.ListedIffAuthorized | backend/auth/pairing_manager.py:171-228 | the full listing, and the listing of the instance's own extension, hold an instance exactly when it is authorized |
| PairingManager.ApprovalAndRevocationShowInListing | backend/auth/pairing_manager.py:106-228 | an approved pending instance is listed under its extension with the record it asked with; a revoked instance is in no listing |
| PairingManager.ClearOldPendingRequests | backend/auth/pairing_manager.py:240-255 | exactly the pending entries older than the limit are removed, the count returned is how many were removed, and the authorized map and the invariant are kept |
| PairingManager.EncodeKey | backend/auth/pairing_manager.py:262-266 | the key string is the extension id, one ':' and the instance id, and nothing else |
| PairingManager.FirstColon | backend/auth/pairing_manager.py:295-295 | finds the first ':' of a key string, or reports that there is none |
| PairingManager.DecodeKey | backend/auth/pairing_manager.py:295-296 | splitting fails exactly when the string has no ':'; a decoded key has a colon-free extension id and encodes back to the very string that was read |
| PairingManager.DecodeEncodeKey | backend/auth/pairing_manager.py:295-296 | splitting `ext:inst` at the first ':' gives back the key whenever the extension id has no ':' |
| PairingManager.ColonInExtensionIdIsAmbiguous | backend/auth/pairing_manager.py:262-296 | with a ':' in the extension id, two different keys encode alike and decoding does not restore the first |
| PairingManager.EncodeSection | backend/auth/pairing_manager.py:261-268 | each record of a section is written under its `ext:inst` key, in order, as data that rebuilds exactly that record |
| PairingManager.LoadSection | backend/auth/pairing_manager.py:294-303 | reading a section keeps every entry loaded before it, and only a non-empty section can fail; an entry whose key has no ':' or whose data `PairingRequest.from_dict` rejects stops the load at once, with nothing more inserted |
| PairingManager.Load | backend/auth/pairing_manager.py:283-309 | no file gives the empty registry; the pending map is what the pending section loaded, even when it failed part-way; after such a failure the authorized map stays empty, otherwise it is what the authorized section loads |
| PairingManager.LoadSectionFails | backend/auth/pairing_manager.py:294-303 | reading a section stops with an error exactly when one of its entries has a key without ':' or data that `cls(**data)` cannot rebuild: not a mapping, or a missing or extra field |
| PairingManager.MalformedPendingKeyDropsAuthorized | backend/auth/pairing_manager.py:289-309 | a colon-free key, or a record that `from_dict` rejects, in the pending section makes the load skip the whole authorized section |
| PairingManager.LoadEncodedSection | backend/auth/pairing_manager.py:294-303 | reading back a section written with colon-free extension ids never fails and inserts exactly its entries |
| PairingManager.SectionRoundTrip | backend/auth/pairing_manager.py:257-303 | a section written from any listing of a map with colon-free extension ids reads back as exactly that map, without failure |
| PairingManager.SaveLoadRoundTrip | backend/auth/pairing_manager.py:260-303 | writing a registry, in any entry order, and loading the file restores the registry when no extension id contains ':' |
| CryptoManager.Decode | backend/auth/crypto_manager.py:30-55 | the generic handler is reached exactly when the key does not load, or when an authentic token's claim checks raise outside the library's token errors (`int(None)` of `exp`, say); a payload is decoded exactly when the token is authentic, the checks before `exp` pass, `exp` is absent or converts to a future time, and the checks after it pass, and it is the token's claims; the expired-signature handler is reached exactly when the token is authentic, the earlier checks pass, and `int(exp) <= now`; an inauthentic token, a rejection by an earlier check, an `exp` that `int()` refuses with ValueError, and a rejection by a later check each reach the invalid-token handler |
| CryptoManager.VerifyJws | backend/auth/crypto_manager.py:30-55 | a payload comes back exactly when the key loads, the token is well formed, declares ES256 and is signed by the key, the checks before `exp` pass, `exp` is absent or `int()` of it is in the future, and the checks after `exp` pass; the payload is the token's claims; an expired token gives None; no failure escapes |
| CryptoManager.VerifyJwsExpiryMonotone | backend/auth/crypto_manager.py:38-49 | a token accepted at some time is accepted, with the same payload, at any earlier time that the other claim checks allow |
| CryptoManager.EarlierChecksWinOverExpiry | backend/auth/crypto_manager.py:47-52 | an authentic token that is expired and also rejected by a check that runs before `exp` (`nbf`, `iat`) reaches the invalid-token handler, not the expired-signature one |
| CryptoManager.FarFutureStringConverts | backend/auth/crypto_manager.py:38-42 | `int()` reads the `exp` string "9999999999" as the number 9999999999 |
| CryptoManager.StringExpIsAccepted | backend/auth/crypto_manager.py:38-45 | an authentic token whose `exp` is the string "9999999999" and whose other checks pass is accepted before that time, with its claims as the payload |
| CryptoManager.BooleanExpIsExpired | backend/auth/crypto_manager.py:38-49 | an authentic token whose `exp` is `true` converts to 1 and is an expired signature at any time from 1 on |
| CryptoManager.NullExpIsGenericError | backend/auth/crypto_manager.py:38-55 | an authentic token whose `exp` is `null` raises TypeError in the conversion and reaches the generic handler |
| Json.IntOf | backend/auth/crypto_manager.py:38-42 | `int()` as the decode call applies it to `exp`: `None`, lists and dictionaries raise TypeError; a boolean is 0 or 1; an integer is itself; a string is its parse, and ValueError when it does not parse |
| Json.ParseIntDigits | backend/auth/crypto_manager.py:38-42 | a non-empty string of decimal digits parses to the number it denotes |
| Json.ParseIntIgnoresPadding | backend/auth/crypto_manager.py:38-42 | white space before and after the text does not change what `int()` reads |
| CryptoManager.ValidatePublicKey | backend/auth/crypto_manager.py:68-91 | True exactly for an object with kty "EC", crv "P-256" and non-empty x and y that the key loader accepts; the wrong kty, the wrong crv, or a missing or empty coordinate each give False |
| CryptoManager.ValidatedKeyLoads | backend/auth/crypto_manager.py:84-87 | a key that passed validation always loads, so verification under it reaches the generic handler only for an authentic token whose claim checks raise outside the library's token errors |
| MeetsController.Init | backend/GoogleMeetsController.py:29-55 | the controller starts over the loaded registry with no connection, not connected, the default meeting state and no waiting approvals, and satisfies the controller invariant whenever the registry is valid |
| MeetsController.RequestApproval | backend/GoogleMeetsController.py:87-99 | an authorized instance gets an immediate yes and nothing is recorded; otherwise a fresh waiting future with a new ticket is filed under the key, replacing any older one, and nothing else changes |
| MeetsController.ResolveFuture | backend/GoogleMeetsController.py:105-109 | the key's future always leaves the table and is answered only if it was still waiting, with the ticket it was filed under |
| MeetsController.ApproveInstance | backend/GoogleMeetsController.py:101-110 | only the registry, which approves, and the key's future, which leaves the table, change; a waiting future is answered yes; the invariant is kept |
| MeetsController.DenyInstance | backend/GoogleMeetsController.py:112-121 | only the registry, which drops the pending request, and the key's future, which leaves the table, change; a waiting future is answered no; the invariant is kept |
| MeetsController.ApprovalAnswersTheWaitingRequest | backend/GoogleMeetsController.py:82-121 | a request filed for an unauthorized instance is answered yes by approval and no by denial, under its own ticket |
| MeetsController.RevokeInstance | backend/GoogleMeetsController.py:74-80 | as the settings page calls it, off the event loop: the registry forgets the instance and nothing else changes; no connection is closed, and the call raises exactly when the live connection belongs to that instance |
| MeetsController.RevokeInstanceIntended | backend/GoogleMeetsController.py:74-80 | with the close scheduled on the loop: the registry forgets the instance, nothing raises, and the live connection is closed with code 1000 "Instance revoked" exactly when it belongs to that instance |
| MeetsController.RevokeInstanceDiffers | backend/GoogleMeetsController.py:74-80 | for the live instance, both forget it in the registry, but as written the call raises and closes nothing, where the intended call closes the connection |
| MeetsController.CommandsStillReachRevokedConnection | backend/GoogleMeetsController.py:74-80 | as written, after the live instance is revoked it is no longer authorized, yet a key's command is still sent to its connection |
| MeetsController.VerifyMessage | backend/GoogleMeetsController.py:133-164 | a missing or empty extension id, instance id or token, or an unauthorized instance, gives None; a payload is returned only if it verifies under the stored key and names the envelope's instance id; every such verified, non-empty payload is returned |
| MeetsController.RevocationBlocksEveryToken | backend/GoogleMeetsController.py:143-145 | once an instance is revoked, no message from it passes the gate, whatever token it carries |
| MeetsController.HandshakeValidation | backend/GoogleMeetsController.py:175-213 | the checks pass exactly when both ids are non-empty and the public key is present and well formed; otherwise the first failing check, in the order extension id, instance id, public key, key format, decides the error sent to the connection |
| MeetsController.HandleHandshake | backend/GoogleMeetsController.py:175-245 | a failing check is answered with its error and nothing changes; a passing handshake is never rejected, and is accepted exactly when the instance is authorized, which makes the connection the active one for that instance with "Already authorized"; otherwise the pairing request is recorded, a waiting future with the next ticket is filed under the key, the client is told to wait, and nothing else changes; the invariant is kept |
| MeetsController.CompleteHandshake | backend/GoogleMeetsController.py:247-275 | approval makes the connection the active one for the key and reports "Pairing approved"; denial changes nothing and is reported; a timeout changes only the key's future, cancelling it when its ticket matches, and is reported |
| MeetsController.TimedOutRequestIsNotResolved | backend/GoogleMeetsController.py:248-261 | after a timeout, a later approval no longer answers the abandoned handshake |
| MeetsController.MergeState | backend/GoogleMeetsController.py:277-298 | each of the seven state fields takes the reported value when present and keeps its old value otherwise |
| MeetsController.UnknownFieldsIgnored | backend/GoogleMeetsController.py:282-295 | keys outside the seven state fields never influence the merged state |
| MeetsController.FullReportReplacesState | backend/GoogleMeetsController.py:282-295 | a report that carries all seven fields replaces the state, whatever it was |
| MeetsController.HandleMessage | backend/GoogleMeetsController.py:301-349 | handshakes go to the handshake handler; any other message that fails the gate gets "not_authorized", and one whose payload type differs from the envelope type gets "type_mismatch", both with nothing changed; a verified state message merges its data and notifies the listeners, a verified heartbeat does the same and is acknowledged, and any other verified type does nothing; only the meeting state can change, and only that way |
| MeetsController.RevokedInstanceCannotUpdateState | backend/GoogleMeetsController.py:313-321 | after a revocation, no non-handshake message from that instance changes the controller |
| MeetsController.CloseConnection | backend/GoogleMeetsController.py:366-384 | closing the active connection clears the identity, resets the state to its defaults and notifies listeners; closing any other connection changes nothing |
| MeetsController.SendCommand | backend/GoogleMeetsController.py:391-408 | without an active connection nothing is sent and the answer is False; otherwise the command, with `{}` for missing data, goes to the active connection, and the answer is whether the transport took it |
| MeetsController.CommandsStopAfterClose | backend/GoogleMeetsController.py:366-393 | once the active connection has closed, a command is not sent and the answer is False |
| MeetsController.CommandsGoToAcceptedConnection | backend/GoogleMeetsController.py:224-235 | after a handshake is accepted, a command goes to the connection that made it |
| ImageManager.CacheKey | actions/ImageManager.py:84-84 | the key is the name, then "__", then the mode's lower-case name, and nothing else |
| ImageManager.CacheKeyInjective | actions/ImageManager.py:84-84 | two different (name, mode) pairs never share a cache key, whatever the names contain |
| ImageManager.LoadImage | actions/ImageManager.py:190-208 | a missing or unreadable file leaves the cache alone; a file whose greyscale conversion raises adds only its colour variant; a convertible one stores the colour and the grey variant under their keys and keeps every other entry; both-or-neither is preserved unless the conversion failed, and every cached picture stays grey exactly under its disabled key |
| ImageManager.GreyFailureLeavesColourOnly | actions/ImageManager.py:196-207 | when the greyscale conversion raises, the name is left cached in colour only, so both-or-neither no longer holds |
| ImageManager.ReactionImages | actions/ImageManager.py:174-177 | each reaction is loaded as `reaction_<id>` from `reactions/<id>.png` |
| ImageManager.Preload | actions/ImageManager.py:50-60 | preloading only adds cache entries, changes nothing when no listed file opens, and keeps every picture grey exactly under its disabled key |
| ImageManager.PreloadLoadsReadable | actions/ImageManager.py:93-177 | every listed asset whose file converts ends up cached in both variants |
| ImageManager.PreloadAddsOnlyReadable | actions/ImageManager.py:190-204 | a new cache key always comes from a listed asset whose file opens |
| ImageManager.PreloadKeepsPairs | actions/ImageManager.py:196-204 | unless a greyscale conversion fails, preloading keeps every name cached in both variants or in neither |
| ImageManager.Initialize | actions/ImageManager.py:42-66 | once initialised, nothing changes; without an assets directory it raises and stays uninitialised; otherwise every convertible asset is cached in both variants, both-or-neither is kept when no conversion fails, and grey flags stay right |
| ImageManager.InitializeIdempotent | actions/ImageManager.py:42-44 | a second initialisation changes nothing, whatever directory it names |
| ImageManager.GetImage | actions/ImageManager.py:80-90 | nothing before initialisation; afterwards exactly the cached picture under the name and mode, if any |
| ImageManager.ServedVariantMatchesMode | actions/ImageManager.py:84-90 | with the grey flags right, a served picture is grey exactly when the disabled mode was asked for |
| ImageManager.VariantsComeTogether | actions/ImageManager.py:197-204 | when a name's colour variant is available, so is its grey one, and the other way round |
| ImageManager.ReactionImagesPreloaded | actions/ImageManager.py:160-177 | from a fresh start, a reaction whose file converts is served in both variants |
| ActionBase.MediaIfAny | actions/ToggleStateAction.py:82-83 | the picture is drawn once, at the given size, exactly when there is one |
| ActionBase.GetConnected | actions/GoogleMeetActionBase.py:39-47 | connected only when the backend exists and answers True; an absent backend or a raise reads as not connected |
| ActionBase.GetInMeeting | actions/GoogleMeetActionBase.py:49-57 | the result is truthy exactly when the backend exists and answers a truthy value, and is then that value; an absent backend, a raise or a falsy answer give False |
| ActionBase.ProbesDecideConnectionState | actions/GoogleMeetActionBase.py:39-57 | the derived state is "disconnected" exactly when the backend does not answer True to the connection query, and "connected" exactly when it does and its meeting answer is truthy |
| ActionBase.DeriveConnectionState | actions/GoogleMeetActionBase.py:404-410 | "disconnected" whenever not connected; "connected" exactly when connected and in a meeting; "not_in_meeting" exactly when connected but not in one |
| ActionBase.ImageModeFor | actions/GoogleMeetActionBase.py:353-361 | a given connection state decides the variant: grey exactly for "disconnected" and "not_in_meeting"; without one, the given mode, else colour |
| ActionBase.GreyedUnlessInCall | actions/GoogleMeetActionBase.py:354-358 | for a derived connection state, the grey variant is chosen exactly when not in a call |
| ActionBase.GetImage | actions/GoogleMeetActionBase.py:339-363 | "disconnected" or "not_in_meeting" gives the cache's grey picture; any other state string, and an `ImageMode` passed as the state, give the colour picture; without a state, the picture of the given mode, colour by default |
| ActionBase.ImageIn | actions/GoogleMeetActionBase.py:339-363 | the picture for a derived connection state is the cache's colour entry in a call and its grey entry otherwise |
| ActionBase.DrawnPictureGreyOutsideCall | actions/GoogleMeetActionBase.py:353-363 | with the grey flags right, a picture drawn for a connection state is grey exactly outside a call |
| ActionBase.FullState | actions/GoogleMeetActionBase.py:412-423 | the merged state has the base keys and the action's keys, and the action's keys win |
| ActionBase.UpdateState | actions/GoogleMeetActionBase.py:390-430 | a render happens exactly when the merged state differs from the cached one, with that state and the derived connection state; the cache always ends up holding the merged state |
| ActionBase.UpdateRendersOnce | actions/GoogleMeetActionBase.py:425-430 | repeating an update with unchanged inputs renders nothing the second time |
| ActionBase.OnReady | actions/GoogleMeetActionBase.py:435-441 | after the cache is cleared, the next update always renders |
| ActionBase.ApprovalTitle | actions/GoogleMeetActionBase.py:191-198 | the title is `name (browser)` when the version is empty and `name (browser version)` otherwise; missing names use their defaults |
| ActionBase.TitleDeterminesVersion | actions/GoogleMeetActionBase.py:191-198 | two rows of the same extension and browser with the same title have the same version |
| ActionBase.ShortInstance | actions/GoogleMeetActionBase.py:202-202 | "Unknown" for an empty id; the whole id when it is shorter than eight characters; otherwise its first eight characters |
| ActionBase.ApprovalSubtitle | actions/GoogleMeetActionBase.py:201-203 | the subtitle starts with the operating system and ends with the shortened instance id |
| ActionBase.SubtitleDeterminesOs | actions/GoogleMeetActionBase.py:201-203 | for one instance, equal subtitles mean equal operating systems |
| Mixins.FromInt | actions/mixins/MixinBase.py:6-14 | an integer names a state exactly when it is -1, 0 or 1, and that state has that value |
| Mixins.StateValues | actions/mixins/MixinBase.py:12-14 | the states have exactly the values -1, 0 and 1, and each value names its state back |
| Mixins.SetCurrentState | actions/mixins/MixinBase.py:28-34 | setting succeeds exactly for -1, 0 and 1 and then stores the state with that value; any other integer fails and names the value |
| Mixins.SetThenRead | actions/mixins/MixinBase.py:25-34 | reading after setting a state's value gives that state |
| Mixins.NextState | actions/mixins/ToggleMixin.py:7-15 | UNKNOWN cannot be toggled; a known state yields the other known state; the mixin is not changed |
| Mixins.ToggleIsInvolution | actions/mixins/ToggleMixin.py:9-15 | toggling twice from a known state returns to it |
| ToggleStateAction.Construct | actions/ToggleStateAction.py:37-46 | construction succeeds exactly when both image names and both backend method names are set and non-empty |
| ToggleStateAction.ShippedActionsConstruct | actions/ToggleMic.py:12-17 | the microphone, camera and hand configurations all pass construction |
| ToggleStateAction.ConstructedActionWorks | actions/ToggleStateAction.py:33-46 | construction does not look at the labels, and a constructed action draws at most a picture and a label and, in a call, calls its toggle and asks for a refresh |
| ToggleStateAction.ComputeState | actions/ToggleStateAction.py:48-60 | the only key is `toggle_enabled`; it holds the backend's answer, or None when there is no backend or the query raised |
| ToggleStateAction.RenderState | actions/ToggleStateAction.py:62-87 | a picture is drawn, first, exactly when the cache holds the one the state names (error when unknown, ON when truthy, OFF when falsy) in the connection state's variant, and it is grey exactly outside a call; a label is drawn, last, at 14, exactly when the state is known and its label is non-empty |
| ToggleStateAction.UnknownStateShowsError | actions/ToggleStateAction.py:48-87 | a missing backend, a raising query or a None answer draws no label, and a picture only when the error picture is cached |
| ToggleStateAction.OnKeyDown | actions/ToggleStateAction.py:89-104 | no toggle outside a call; in a call with a backend the toggle is called, and a refresh follows exactly when it did not raise; no error is ever shown |
| ToggleStateAction.Tick | actions/GoogleMeetActionBase.py:420-430 | the cache ends up holding the merged state; an unchanged state draws nothing, and a changed one draws exactly what rendering the new state in the derived connection state draws |
| ToggleStateAction.PressThenTickShowsOtherPicture | actions/ToggleStateAction.py:62-104 | a successful press in a call asks for a refresh, and once the backend reports the flipped flag the next tick draws the other picture, in colour |
| ParticipantCount.NatToDecimal | actions/ParticipantCount.py:56-56 | the label is a non-empty string of decimal digits that starts with '0' exactly for the count 0 |
| ParticipantCount.DecimalRoundTrip | actions/ParticipantCount.py:56-56 | reading the label back as a decimal number gives the count |
| ParticipantCount.IntToDecimal | actions/ParticipantCount.py:56-56 | a non-negative count's label is decimal digits without a leading zero that read back as the count; a negative count's label is '-' followed by such digits reading back as its magnitude |
| ParticipantCount.CanonicalDigitsUnique | actions/ParticipantCount.py:56-56 | a digit string without a leading zero that denotes a number is exactly that number's label |
| ParticipantCount.StrIntRoundTrip | actions/ParticipantCount.py:56-56 | Python's `int()` reads every count label back as its count, negative counts included |
| ParticipantCount.IntToDecimalUnique | actions/ParticipantCount.py:56-56 | any string spelled as an optional '-' and canonical digits denoting the count is the count's label, so the label is `str(count)` and nothing else |
| ParticipantCount.DigitCount | actions/ParticipantCount.py:59-66 | the label has one digit exactly below 10, two for 10 to 99, three for 100 to 999, and four or more from 1000 |
| ParticipantCount.FontSize | actions/ParticipantCount.py:58-66 | the size is an even number from 16 to 22: 22 below 10 and 16 from 1000 |
| ParticipantCount.FontSizeNonIncreasing | actions/ParticipantCount.py:59-66 | a larger count never gets a larger font |
| ParticipantCount.FontSizeByDigits | actions/ParticipantCount.py:55-68 | the font size follows the label length: 22, 20, 18 and 16 for one, two, three and more digits |
| ParticipantCount.ShowCount | actions/ParticipantCount.py:49-68 | the colour participants picture at 0.75 when cached; then a count that compares with integers gets its text as the label at its font size, and any other count raises after the picture |
| ParticipantCount.DisconnectedImageAsWritten | actions/ParticipantCount.py:72-73 | as written, the disconnected view's picture is the colour one whatever the connection |
| ParticipantCount.DisconnectedImage | actions/ParticipantCount.py:72-75 | the disconnected view's picture is grey exactly when not connected or not in a meeting |
| ParticipantCount.DisconnectedImageDiffers | actions/ParticipantCount.py:72-75 | with both variants cached, the as-written and the intended disconnected pictures differ when disconnected |
| ParticipantCount.ShowDisconnected | actions/ParticipantCount.py:70-80 | as written: the count is forgotten, the colour participants picture is set at 0.9 in and out of a call, even when missing, and "--" follows exactly when a count had been showing |
| ParticipantCount.ShowDisconnectedIntended | actions/ParticipantCount.py:70-80 | as intended: the same, but the picture is the derived connection state's, grey exactly outside a call |
| ParticipantCount.DashesShownOnce | actions/ParticipantCount.py:77-80 | a second disconnected view in a row only sets the picture |
| ParticipantCount.ShowError | actions/ParticipantCount.py:82-88 | the count is forgotten; the colour error picture is set at 0.9 when cached, then "ERROR" at size 12 |
| ParticipantCount.UpdateState | actions/ParticipantCount.py:25-47 | outside a call, or with a None count, the disconnected view; without a backend or with a raising query, the error view; otherwise nothing is drawn exactly when the count equals the last one, a changed integer count is remembered and drawn, and a count that does not compare with integers draws the picture, then the error view, and is forgotten; only an answered, non-None count is ever remembered |
| ParticipantCount.CountDrawnOnce | actions/ParticipantCount.py:41-43 | polling again with the same count draws nothing |
| ParticipantCount.CountRedrawnAfterErrorOrDisconnect | actions/ParticipantCount.py:25-88 | after the error view or the disconnected view, the next integer count is drawn again |
| ParticipantCount.OnReady | actions/ParticipantCount.py:20-23 | after a reset, an answered non-None count always draws something, and an integer count draws its label |
| LeaveCall.LeaveImageAsWritten | actions/LeaveCall.py:23-25 | as written, the leave picture is the colour one whatever the connection |
| LeaveCall.LeaveImage | actions/LeaveCall.py:23-30 | the intended leave picture is grey exactly when not connected or not in a meeting |
| LeaveCall.LeaveImageFollowsConnectionState | actions/LeaveCall.py:23-30 | the intended leave picture is the one the derived connection state selects |
| LeaveCall.LeaveImageDiffers | actions/LeaveCall.py:23-26 | with both variants cached, the as-written and the intended leave pictures differ when disconnected |
| LeaveCall.UpdateState | actions/LeaveCall.py:22-30 | as written, every update sets exactly one picture at 0.9, the colour leave picture, even when it is missing |
| LeaveCall.KeyIgnoresConnectionState | actions/LeaveCall.py:22-30 | as written, the key draws the same in and out of a call |
| LeaveCall.UpdateStateIntended | actions/LeaveCall.py:22-30 | as intended, every update sets the derived connection state's leave picture at 0.9, grey exactly outside a call |
| LeaveCall.OnKeyDown | actions/LeaveCall.py:32-45 | leave_call is called exactly when in a call with a backend; a one-second error is shown exactly when not in a call or the call did not return; nothing else happens |
| LeaveCall.PressLeavesOnlyWhenKeyIsLive | actions/LeaveCall.py:22-45 | with a backend, a press leaves the call exactly when the connection state is "connected", which is when the intended key shows the colour picture |
| InMeetingStatus.RenderState | actions/InMeetingStatus.py:16-29 | the meeting picture at 0.9, first, exactly when the cache holds it in the connection state's variant, grey exactly outside a call; then always one label: "IN MEETING" at 11 when `in_meeting` is truthy, else "NOT IN MEETING" at 10, False when absent |
| InMeetingStatus.LabelMatchesMeeting | actions/InMeetingStatus.py:18-29 | with the shared state, the label says "IN MEETING" exactly when the backend's meeting answer is truthy, and the picture is in colour exactly when also connected |
| SendReaction.Ids | actions/SendReaction.py:89-89 | the identifiers of the reaction table, in declaration order |
| SendReaction.IdsArePreloaded | actions/SendReaction.py:15-25 | the reaction table's identifiers are exactly the reactions the image cache preloads, in the same order |
| SendReaction.IdsDistinct | actions/SendReaction.py:15-25 | no identifier occurs twice in the reaction table |
| SendReaction.IndexOf | actions/SendReaction.py:90-91 | an identifier has a position exactly when it is listed; that position holds it, and no earlier one does |
| SendReaction.IndexOfPosition | actions/SendReaction.py:89-92 | in a list without repeats, every position is found again from its identifier |
| SendReaction.ComputeState | actions/SendReaction.py:31-35 | the only key is `reaction`; it holds the stored reaction, or "thumbs_up" when none is stored |
| SendReaction.RenderState | actions/SendReaction.py:37-45 | the reaction to send becomes the state's reaction, "thumbs_up" by default; at most one draw, made exactly when the reaction is a string whose `reaction_<id>` picture is cached in the connection state's variant, at 0.8, grey exactly outside a call |
| SendReaction.ListedReactionRenders | actions/SendReaction.py:37-45 | after initialisation from readable files, every listed reaction renders its colour picture in a call |
| SendReaction.OnKeyDown | actions/SendReaction.py:47-59 | outside a meeting only a two-second error; otherwise the remembered reaction is sent when there is a backend, and a three-second error follows exactly when the call did not return |
| SendReaction.LoadReactionConfig | actions/SendReaction.py:84-92 | a row is selected exactly when the stored reaction is in the table, and the selected row holds that reaction |
| SendReaction.DefaultSelection | actions/SendReaction.py:84-92 | with nothing stored, the thumbs-up row is selected |
| SendReaction.OnReactionChanged | actions/SendReaction.py:94-108 | a row inside the table selects its reaction, stores it and asks for a redraw; any other position changes nothing |
| SendReaction.SelectionRoundTrip | actions/SendReaction.py:84-105 | choosing a row and reopening the settings selects the same row |
| SendReaction.SelectionIsSent | actions/SendReaction.py:94-108 | after a row is chosen and the key redraws, the next press sends that row's reaction |

## Left out

- The WebSocket server, the asyncio loop and the threads (`_run_server`, `start`, `stop`, `_handle_client`'s receive loop) are left out. They are I/O and concurrency. Each handler is a step function, and connections are identified by number.
- The 60-second `wait_for` on an approval future is not modelled as a clock. Its expiry is the `TimedOut` event of `MeetsController.CompleteHandshake`.
- ES256 signature checking and JWK loading are not modelled; they are foreign library calls. `CryptoManager.JwtLibrary` stands in for them. The order of the decode steps and the `exp` check are written out, while the other registered-claim checks stay abstract.
- CryptoManager.Decode leaves the checks before `exp` (required claims, `iat`, `nbf`) and after it (issuer, audience, and in later PyJWT releases subject and token id) to the oracle. Their own `int()` conversions and release-dependent rules are not written out. Only their position in the order and which handler their failure reaches are modelled.
- CryptoManager.ValidatedKeyLoads no longer promises that verification under a validated key avoids the generic handler. A claim conversion that raises TypeError, such as `int(None)` on `exp`, reaches that handler too.
- Json.ParseInt reads ASCII decimal digits only. Python's `int()` also accepts the other Unicode decimal digits, and the model counts a string of them as a ValueError.
- JSON text is not modelled: `json.loads` and `json.dumps` of messages, and the storage file's reads and writes. Messages arrive decoded. The storage file is a list of entries, each a key string and the outcome of rebuilding its record.
- JSON numbers are integers only. A float such as `"participant_count": 3.0` or a fractional `exp` claim cannot be represented, and neither can Python's formatting of a float count.
- Non-string identity fields and a non-object `data` in a message are not modelled. Identity fields are optional strings and `data` is an object. A Python `dict` compared against a non-string id is outside the model.
- The `True == 1` equality of Python is not modelled. The render cache, the type check and the remembered participant count compare JSON values structurally, so a change from `1` to `True` counts as a change in the model and not in Python.
- ActionBase.GetInMeeting returns the backend's value when it is truthy, as `... or False` does, but every action reads only its truthiness: LeaveCall, ToggleStateAction, SendReaction and ParticipantCount take a boolean `inMeeting`. The `in_meeting` entry of the rendered state keeps the raw value.
- ParticipantCount.UpdateState takes any JSON value as the count. A count that is not an integer or a boolean raises at the first comparison of `show_count`, which the model writes out; the `True`/`False` labels of boolean counts are Python's `str`.
- PairingManager.LoadSection does not write out how `PairingRequest(**data)` builds a record. Each stored entry carries the outcome: the record, or the TypeError of data that is not a mapping or has a missing or extra field. The dataclass checks no field types, so a stored record with a non-string id or a float timestamp is not represented.
- PairingManager.GetAuthorizedInstances returns the selected records as a map, not as a list. Python's list order is dictionary insertion order, which the model does not track.
- PairingManager.ClearOldPendingRequests takes the limit as an argument. The default of 300 seconds is the constant `PairingManager.DefaultMaxAgeSeconds`.
- ActionBase.ApprovalTitle reads string-valued metadata only, and so does ActionBase.ApprovalSubtitle. A pairing record's metadata is a JSON value.
- Mixins.SetCurrentState follows the membership rule of Python 3.12 and later, where `value in State` accepts a plain integer. On Python 3.10 and 3.11 that test raises `TypeError` for every plain integer, which the model does not represent.
- ImageManager.LoadImage distinguishes a file that does not open from one whose greyscale conversion raises. PIL's decoding itself is left out, so a cached picture is named by its file and a grey flag. Both-or-neither is therefore promised only when no conversion fails (ImageManager.PreloadKeepsPairs, ImageManager.Initialize).
- `get_pending_requests`, `get_state` and `is_connected` are plain getters of the maps and fields the model exposes directly. So are the toggle, reaction and leave wrappers that forward to `send_command`, and the listener registration. None of them is modelled separately.
- GTK and Adw widgets, signals, the status-label thread and the approval-refresh thread are left out. Drawing is a list of `Draw` records, and a key press returns `KeyEffect` records.
- An exception inside a `render_state` is not modelled. The base `update_state` would swallow it and leave the cache unchanged.
- ParticipantCount.ShowDisconnected takes the connection flags from its caller. The source queries the backend a second time, which could answer differently between the two queries.
- SendReaction.RenderState draws nothing for a stored reaction that is not a string. Python would format it into an image name, and no such name is ever cached.
- `backend/backend.py`, `main.py`, `__install__.py`, `scripts/download_noto_emoji_pngs_named.py` and `backend/auth/__init__.py` are not part of this model. They are a thin proxy, plugin registration, downloads and re-exports.

## Findings

| source | as written | input that shows it | evidently intended | confidence | as-written member | corrected member |
|---|---|---|---|---|---|---|
| actions/LeaveCall.py:25 | `get_image("leave", ImageMode.DISABLED)` passes the mode in the `connection_state` position; an `ImageMode` is neither "disconnected" nor "not_in_meeting", so the colour picture is chosen | not connected, with both `leave` variants cached: the key shows `leave__regular` | the grey picture outside a call, i.e. `mode=ImageMode.DISABLED` | high; not executed | LeaveCall.LeaveImageAsWritten, LeaveCall.UpdateState, LeaveCall.LeaveImageDiffers | LeaveCall.LeaveImage, LeaveCall.UpdateStateIntended |
| backend/GoogleMeetsController.py:80 | `asyncio.create_task(...)` closes the revoked connection. The only caller is the settings page's Revoke button (actions/GoogleMeetActionBase.py:317), through the backend proxy (backend/backend.py:160-162), on a thread with no running event loop. So the call raises RuntimeError after the registry has already dropped the record | revoking the instance whose connection is live: the record is gone and the button handler logs the error. The socket stays open and keeps receiving the keys' commands | schedule the close on the server's loop with `asyncio.run_coroutine_threadsafe(..., self.loop)`, as the command wrappers at backend/GoogleMeetsController.py:452-490 do | medium; not executed | MeetsController.RevokeInstance, MeetsController.RevokeInstanceDiffers, MeetsController.CommandsStillReachRevokedConnection | MeetsController.RevokeInstanceIntended, MeetsController.RevocationBlocksEveryToken |
| actions/ParticipantCount.py:73 | `get_image("participants", ImageMode.DISABLED)` has the same positional mix-up, so the disconnected view is never greyed | not connected, with both `participants` variants cached: the key shows `participants__regular` | the grey picture when not connected or not in a meeting | high; not executed | ParticipantCount.DisconnectedImageAsWritten, ParticipantCount.ShowDisconnected, ParticipantCount.DisconnectedImageDiffers | ParticipantCount.DisconnectedImage, ParticipantCount.ShowDisconnectedIntended |

The positional `ImageMode.REGULAR` in `show_count` (actions/ParticipantCount.py:51) and in
`update_state` (actions/LeaveCall.py:29) is harmless. A non-string connection state also
selects colour. `LeaveCall.UpdateState` and `ParticipantCount.UpdateState` keep the calls
as written, and `LeaveCall.KeyIgnoresConnectionState` shows that the leave key then looks
the same in and out of a call. The `...Differs` lemmas show that the as-written pictures
disagree with the corrected ones.

After the failed revocation the gate still refuses every message from the revoked
instance (`MeetsController.RevocationBlocksEveryToken`,
`MeetsController.RevokedInstanceCannotUpdateState`). The open socket can therefore
receive commands but can no longer change the meeting state.

=== FILE: action_base.dfy ===
/**
 * Behaviour shared by every key action: probing the backend, deriving the
 * connection state, choosing an image variant, rendering only when the
 * action's state changed, and formatting the approval rows of the settings
 * page. Widget calls are not modelled; drawing is a list of `Draw` records.
 */
module ActionBase {
  import opened Wrappers
  import opened Json
  import ImageManager

  type ImageMode = ImageManager.ImageMode
  type Picture = ImageManager.Picture

  /** The answer of a backend query: no backend, the call raised, or a returned value. */
  datatype Probe<T> = NoBackend | Raised | Answered(value: T)

  /** What a key action draws on its key. */
  datatype Draw =
    | SetMedia(image: Option<Picture>, size: real)
    | SetBottomLabel(text: string, fontSize: nat)

  /** How a backend command call went: no backend to call, the call raised, or it returned. */
  datatype CallOutcome = NoBackendToCall | CallRaised | CallReturned

  /** What a key press does besides drawing. */
  datatype KeyEffect =
    | Invoke(backendMethod: string, arg: Option<Value>)
    | UpdateRequested
    | ShowError(seconds: real)

  /** `if img: set_media(image=img, size=size)`: draws the picture only when the cache has it. */
  function MediaIfAny(img: Option<Picture>, size: real): (draws: seq<Draw>)
    ensures |draws| <= 1
    ensures SetMedia(img, size) in draws <==> img.Some?
    ensures forall d :: d in draws ==> d == SetMedia(img, size)
  {
    if img.Some? then [SetMedia(img, size)] else []
  }

  /** `get_connected`: an absent backend or a failing call reads as not connected. */
  function GetConnected(p: Probe<bool>): (connected: bool)
    ensures connected <==> p == Answered(true)
  {
    match p
    case Answered(b) => b
    case _ => false
  }

  /**
   * `get_in_meeting`: the backend's answer when it is truthy (`... or False`),
   * otherwise False; a missing backend or a failing call reads as False.
   */
  function GetInMeeting(p: Probe<Value>): (inMeeting: Value)
    ensures Truthy(inMeeting) <==> p.Answered? && Truthy(p.value)
    ensures Truthy(inMeeting) ==> inMeeting == p.value
    ensures !Truthy(inMeeting) ==> inMeeting == Bool(false)
  {
    match p
    case Answered(v) => if Truthy(v) then v else Bool(false)
    case _ => Bool(false)
  }

  datatype ConnectionState = Disconnected | NotInMeeting | Connected

  /** The string handed to `render_state`. */
  function StateName(cs: ConnectionState): string {
    match cs
    case Disconnected => "disconnected"
    case NotInMeeting => "not_in_meeting"
    case Connected => "connected"
  }

  /** The connection state of `update_state`: not connected wins over the meeting flag. */
  function DeriveConnectionState(connected: bool, inMeeting: bool): (cs: ConnectionState)
    ensures !connected ==> cs == Disconnected
    ensures cs == Connected <==> connected && inMeeting
    ensures cs == NotInMeeting <==> connected && !inMeeting
  {
    if !connected then Disconnected
    else if !inMeeting then NotInMeeting
    else Connected
  }

  /**
   * The second positional argument of `get_image`. Callers meant to pass a
   * connection-state string; some pass an `ImageMode` there instead.
   */
  datatype StateArg = StateString(name: string) | ModeObject(mode: ImageMode)

  /**
   * The variant `get_image` picks: a given connection state decides (greyed
   * for "disconnected" and "not_in_meeting", colour for anything else, an
   * `ImageMode` included); without one the explicit mode, else colour.
   */
  function ImageModeFor(connectionState: Option<StateArg>, mode: Option<ImageMode>): (m: ImageMode)
    ensures connectionState.Some? ==>
              (m == ImageManager.Disabled <==>
                 connectionState.value == StateString("disconnected")
                 || connectionState.value == StateString("not_in_meeting"))
    ensures connectionState.None? && mode.Some? ==> m == mode.value
    ensures connectionState.None? && mode.None? ==> m == ImageManager.Regular
  {
    if connectionState.Some? then
      if connectionState.value == StateString("disconnected") || connectionState.value == StateString("not_in_meeting")
      then ImageManager.Disabled
      else ImageManager.Regular
    else if mode.Some? then mode.value
    else ImageManager.Regular
  }

  /** For a derived connection state, the greyed variant is chosen exactly when not in a call. */
  lemma GreyedUnlessInCall(cs: ConnectionState, mode: Option<ImageMode>)
    ensures ImageModeFor(Some(StateString(StateName(cs))), mode) == ImageManager.Disabled <==> cs != Connected
  {
  }

  /** The variant a key is meant to show in a connection state: colour only in a call. */
  function VariantFor(cs: ConnectionState): ImageMode {
    if cs == Connected then ImageManager.Regular else ImageManager.Disabled
  }

  /**
   * `get_image`: delegate to the cache. A connection-state string picks the
   * variant and the explicit mode is ignored; an `ImageMode` passed in the
   * connection-state position names no greyed state, so it always selects
   * colour; without a state the explicit mode is used, colour by default.
   */
  function GetImage(images: ImageManager.Manager, name: string, connectionState: Option<StateArg>, mode: Option<ImageMode>)
    : (img: Option<Picture>)
    ensures connectionState == Some(StateString("disconnected")) || connectionState == Some(StateString("not_in_meeting")) ==>
              img == ImageManager.GetImage(images, name, ImageManager.Disabled)
    ensures connectionState.Some? && connectionState.value.StateString?
            && connectionState.value.name != "disconnected" && connectionState.value.name != "not_in_meeting" ==>
              img == ImageManager.GetImage(images, name, ImageManager.Regular)
    ensures connectionState.Some? && connectionState.value.ModeObject? ==>
              img == ImageManager.GetImage(images, name, ImageManager.Regular)
    ensures connectionState.None? ==>
              img == ImageManager.GetImage(images, name, if mode.Some? then mode.value else ImageManager.Regular)
  {
    ImageManager.GetImage(images, name, ImageModeFor(connectionState, mode))
  }

  /** The picture drawn for `name` in a derived connection state: colour in a call, grey otherwise. */
  function ImageIn(images: ImageManager.Manager, name: string, cs: ConnectionState): (img: Option<Picture>)
    ensures img == ImageManager.GetImage(images, name, VariantFor(cs))
  {
    GetImage(images, name, Some(StateString(StateName(cs))), None)
  }

  /** With the cache's grey flags right, a key's picture is grey exactly outside a call. */
  lemma DrawnPictureGreyOutsideCall(images: ImageManager.Manager, name: string, cs: ConnectionState)
    requires ImageManager.GreyMatchesKey(images.cache)
    requires ImageIn(images, name, cs).Some?
    ensures ImageIn(images, name, cs).value.grey <==> cs != Connected
  {
    ImageManager.ServedVariantMatchesMode(images, name, VariantFor(cs));
  }

  /** What the backend probes say decides the connection state, whatever else they return. */
  lemma ProbesDecideConnectionState(pc: Probe<bool>, pm: Probe<Value>)
    ensures var cs := DeriveConnectionState(GetConnected(pc), Truthy(GetInMeeting(pm)));
            && (cs == Disconnected <==> pc != Answered(true))
            && (cs == Connected <==> pc == Answered(true) && pm.Answered? && Truthy(pm.value))
  {
  }

  // ---------------------------------------------------------------------
  // Render-on-change
  // ---------------------------------------------------------------------

  type StateDict = map<string, Value>

  /**
   * The shared part of every action's state; `inMeeting` is what
   * `get_in_meeting` returned, and only its truthiness decides the
   * connection state.
   */
  function BaseState(connected: bool, inMeeting: Value): StateDict {
    map["connection_state" := Str(StateName(DeriveConnectionState(connected, Truthy(inMeeting)))),
        "connected" := Bool(connected),
        "in_meeting" := inMeeting]
  }

  /** `{**base_state, **child_state}`: the action's own keys win. */
  function FullState(connected: bool, inMeeting: Value, child: StateDict): (full: StateDict)
    ensures full.Keys == BaseState(connected, inMeeting).Keys + child.Keys
    ensures forall k :: k in child ==> full[k] == child[k]
    ensures forall k :: k in BaseState(connected, inMeeting) && k !in child ==>
              full[k] == BaseState(connected, inMeeting)[k]
  {
    BaseState(connected, inMeeting) + child
  }

  /** A call of the action's `render_state`. */
  datatype Render = Render(state: StateDict, connectionState: ConnectionState)

  datatype Updated = Updated(cache: Option<StateDict>, render: Option<Render>)

  /**
   * `update_state`: render when the merged state differs from the cached
   * one; in every case the cache ends up holding the merged state.
   */
  function UpdateState(cache: Option<StateDict>, connected: bool, inMeeting: Value, child: StateDict): (u: Updated)
    ensures u.cache == Some(FullState(connected, inMeeting, child))
    ensures u.render.Some? <==> cache != Some(FullState(connected, inMeeting, child))
    ensures u.render.Some? ==>
              u.render.value == Render(FullState(connected, inMeeting, child), DeriveConnectionState(connected, Truthy(inMeeting)))
  {
    var full := FullState(connected, inMeeting, child);
    if Some(full) != cache then
      Updated(Some(full), Some(Render(full, DeriveConnectionState(connected, Truthy(inMeeting)))))
    else
      Updated(cache, None)
  }

  /** Repeating an update with unchanged inputs renders nothing the second time. */
  lemma UpdateRendersOnce(cache: Option<StateDict>, connected: bool, inMeeting: Value, child: StateDict)
    ensures var first := UpdateState(cache, connected, inMeeting, child);
            UpdateState(first.cache, connected, inMeeting, child) == Updated(first.cache, None)
  {
  }

  /** `on_ready`: drop the cache, then update, so the action always renders. */
  function OnReady(connected: bool, inMeeting: Value, child: StateDict): (u: Updated)
    ensures u.render == Some(Render(FullState(connected, inMeeting, child), DeriveConnectionState(connected, Truthy(inMeeting))))
    ensures u.cache == Some(FullState(connected, inMeeting, child))
  {
    UpdateState(None, connected, inMeeting, child)
  }

  // ---------------------------------------------------------------------
  // Approval rows
  // ---------------------------------------------------------------------

  /** `metadata.get(key, default)` for string-valued metadata. */
  function MetaOr(meta: map<string, string>, key: string, default: string): string {
    if key in meta then meta[key] else default
  }

  /** The row title: `extension (browser version)`, the version left out when empty. */
  function ApprovalTitle(meta: map<string, string>): (title: string)
    ensures var name := MetaOr(meta, "extension_name", "Unknown Extension");
            var browser := MetaOr(meta, "browser_name", "Unknown Browser");
            var version := MetaOr(meta, "browser_version", "");
            && (version == "" <==> title == name + " (" + browser + ")")
            && (version != "" ==> title == name + " (" + browser + " " + version + ")")
            && |title| > |name| + 2 + |browser|
            && title[..|name| + 2 + |browser|] == name + " (" + browser
            && title[|title| - 1] == ')'
  {
    var name := MetaOr(meta, "extension_name", "Unknown Extension");
    var browser := MetaOr(meta, "browser_name", "Unknown Browser");
    var version := MetaOr(meta, "browser_version", "");
    var t := name + " (" + browser;
    var t' := if version != "" then t + " " + version else t;
    t' + ")"
  }

  /** The shortened instance id: its first eight characters, or "Unknown" for an empty id. */
  function ShortInstance(instanceId: string): (short: string)
    ensures instanceId == "" ==> short == "Unknown"
    ensures instanceId != "" ==>
              && |short| == (if |instanceId| < 8 then |instanceId| else 8)
              && short <= instanceId
    ensures |instanceId| >= 8 ==> short == instanceId[..8]
  {
    if instanceId == "" then "Unknown"
    else if |instanceId| < 8 then instanceId
    else instanceId[..8]
  }

  /** The row subtitle: operating system, then the shortened instance id. */
  function ApprovalSubtitle(meta: map<string, string>, instanceId: string): (subtitle: string)
    ensures var os := MetaOr(meta, "os", "Unknown OS");
            var short := ShortInstance(instanceId);
            && |subtitle| == |os| + 13 + |short|
            && subtitle[..|os|] == os
            && subtitle[|subtitle| - |short|..] == short
  {
    MetaOr(meta, "os", "Unknown OS") + " \U{2022} Instance: " + ShortInstance(instanceId)
  }

  /** Among rows of one extension and browser, the title tells the browser versions apart. */
  lemma {:induction false} TitleDeterminesVersion(m1: map<string, string>, m2: map<string, string>)
    requires MetaOr(m1, "extension_name", "Unknown Extension") == MetaOr(m2, "extension_name", "Unknown Extension")
    requires MetaOr(m1, "browser_name", "Unknown Browser") == MetaOr(m2, "browser_name", "Unknown Browser")
    requires ApprovalTitle(m1) == ApprovalTitle(m2)
    ensures MetaOr(m1, "browser_version", "") == MetaOr(m2, "browser_version", "")
  {
    var t := MetaOr(m1, "extension_name", "Unknown Extension") + " (" + MetaOr(m1, "browser_name", "Unknown Browser");
    var v1 := MetaOr(m1, "browser_version", "");
    var v2 := MetaOr(m2, "browser_version", "");
    var title := ApprovalTitle(m1);
    if v1 != "" && v2 != "" {
      assert title == t + " " + v1 + ")";
      assert title == t + " " + v2 + ")";
      assert |v1| == |v2|;
      assert v1 == title[|t| + 1..|title| - 1];
      assert v2 == title[|t| + 1..|title| - 1];
    }
  }

  /** For one instance, the subtitle tells the operating systems apart. */
  lemma SubtitleDeterminesOs(m1: map<string, string>, m2: map<string, string>, instanceId: string)
    requires ApprovalSubtitle(m1, instanceId) == ApprovalSubtitle(m2, instanceId)
    ensures MetaOr(m1, "os", "Unknown OS") == MetaOr(m2, "os", "Unknown OS")
  {
  }
}

=== FILE: crypto_manager.dfy ===
/**
 * Host-side cryptographic checks: structural validation of an elliptic-curve
 * JSON Web Key and verification of an ES256-signed JSON Web Token.
 *
 * The JWT library's key loading, parsing, signature check and claim checks
 * other than `exp` are an oracle (`JwtLibrary`). The model writes out the
 * order in which PyJWT's decode runs them, its `exp` check (including the
 * `int()` conversion of the claim), and which of the host's exception
 * handlers each failure reaches.
 */
module CryptoManager {
  import opened Wrappers
  import opened Json

  /** The decoded token payload (its claims set). */
  type Claims = Object

  /** A parsed compact JWS (RFC 7515): the protected header's `alg` and the payload. */
  datatype Jws = Jws(alg: string, claims: Claims)

  /**
   * How one stage of the library's claim checks ended: passed, raised one of
   * the library's invalid-token errors, or raised an exception outside that
   * family (the TypeError of `int(None)`, say), which reaches the host's
   * generic handler.
   */
  datatype ClaimCheck = ChecksPass | ChecksRejected | ChecksCrashed

  /**
   * The JWT library seen from outside:
   *  - `keyFromJwk`: the key loader accepts the JWK;
   *  - `parse`: the compact serialisation is well formed and its payload is a JSON object;
   *  - `signatureValid`: the ES256 signature (section 3.4 of RFC 7518) verifies under the key;
   *  - `checksBeforeExp`: the required-claims, `iat` and `nbf` checks, which run before `exp`;
   *  - `checksAfterExp`: the issuer and audience checks (and, in later releases,
   *    subject and token id), which run after `exp`.
   */
  datatype JwtLibrary = JwtLibrary(
    keyFromJwk: Value -> bool,
    parse: string -> Option<Jws>,
    signatureValid: (string, Value) -> bool,
    checksBeforeExp: (Claims, real) -> ClaimCheck,
    checksAfterExp: (Claims, real) -> ClaimCheck)

  /** Which of the handlers of `verify_jws` a decode attempt ends in. */
  datatype DecodeOutcome =
    | Decoded(claims: Claims)
    | ExpiredSignature
    | InvalidToken
    | OtherError

  /**
   * The `exp` claim (section 4.1.4 of RFC 7519) is present, `int()` converts
   * it, and the time is not before it.
   */
  predicate Expired(c: Claims, now: real) {
    "exp" in c && IntOf(c["exp"]).IntOk? && (IntOf(c["exp"]).n as real) <= now
  }

  /** The `exp` claim is absent, or converts to a time still in the future. */
  predicate ExpAccepted(c: Claims, now: real) {
    "exp" !in c || (IntOf(c["exp"]).IntOk? && now < (IntOf(c["exp"]).n as real))
  }

  /** The token is well formed, declares ES256 and carries a signature made with the key. */
  predicate Authentic(lib: JwtLibrary, token: string, key: Value) {
    && lib.keyFromJwk(key)
    && lib.parse(token).Some?
    && lib.parse(token).value.alg == "ES256"
    && lib.signatureValid(token, key)
  }

  /** The claim checks end in an exception outside the library's token errors, in the order they run. */
  predicate ClaimsCrash(lib: JwtLibrary, c: Claims, now: real) {
    || lib.checksBeforeExp(c, now) == ChecksCrashed
    || (lib.checksBeforeExp(c, now) == ChecksPass && "exp" in c && IntOf(c["exp"]) == IntTypeError)
    || (lib.checksBeforeExp(c, now) == ChecksPass && ExpAccepted(c, now) && lib.checksAfterExp(c, now) == ChecksCrashed)
  }

  /**
   * Loading the key, then decoding with `algorithms=["ES256"]`: the header
   * algorithm and the signature are checked before the claims, and the
   * claims in the order required/`iat`/`nbf`, `exp`, then the rest.
   */
  function Decode(lib: JwtLibrary, token: string, key: Value, now: real): (r: DecodeOutcome)
    ensures r == OtherError <==>
              !lib.keyFromJwk(key) || (Authentic(lib, token, key) && ClaimsCrash(lib, lib.parse(token).value.claims, now))
    ensures r.Decoded? <==>
              && Authentic(lib, token, key)
              && lib.checksBeforeExp(lib.parse(token).value.claims, now) == ChecksPass
              && ExpAccepted(lib.parse(token).value.claims, now)
              && lib.checksAfterExp(lib.parse(token).value.claims, now) == ChecksPass
    ensures r.Decoded? ==> r.claims == lib.parse(token).value.claims
    ensures r == ExpiredSignature <==>
              && Authentic(lib, token, key)
              && lib.checksBeforeExp(lib.parse(token).value.claims, now) == ChecksPass
              && Expired(lib.parse(token).value.claims, now)
    ensures lib.keyFromJwk(key) && !Authentic(lib, token, key) ==> r == InvalidToken
    ensures Authentic(lib, token, key) && lib.checksBeforeExp(lib.parse(token).value.claims, now) == ChecksRejected ==>
              r == InvalidToken
    ensures Authentic(lib, token, key) && lib.checksBeforeExp(lib.parse(token).value.claims, now) == ChecksPass
            && "exp" in lib.parse(token).value.claims
            && IntOf(lib.parse(token).value.claims["exp"]) == IntValueError ==>
              r == InvalidToken
    ensures Authentic(lib, token, key) && lib.checksBeforeExp(lib.parse(token).value.claims, now) == ChecksPass
            && ExpAccepted(lib.parse(token).value.claims, now)
            && lib.checksAfterExp(lib.parse(token).value.claims, now) == ChecksRejected ==>
              r == InvalidToken
  {
    if !lib.keyFromJwk(key) then OtherError
    else match lib.parse(token)
      case None => InvalidToken
      case Some(jws) =>
        if jws.alg != "ES256" then InvalidToken
        else if !lib.signatureValid(token, key) then InvalidToken
        else match lib.checksBeforeExp(jws.claims, now)
          case ChecksCrashed => OtherError
          case ChecksRejected => InvalidToken
          case ChecksPass =>
            var expOutcome := if "exp" in jws.claims then IntOf(jws.claims["exp"]) else IntOk(0);
            if "exp" in jws.claims && expOutcome == IntTypeError then OtherError
            else if "exp" in jws.claims && expOutcome == IntValueError then InvalidToken
            else if "exp" in jws.claims && (expOutcome.n as real) <= now then ExpiredSignature
            else match lib.checksAfterExp(jws.claims, now)
              case ChecksCrashed => OtherError
              case ChecksRejected => InvalidToken
              case ChecksPass => Decoded(jws.claims)
  }

  /**
   * `verify_jws`: every failure, whichever exception the library raised,
   * becomes `None`; it never raises.
   */
  function VerifyJws(lib: JwtLibrary, token: string, key: Value, now: real): (r: Option<Claims>)
    ensures r.Some? <==>
              && Authentic(lib, token, key)
              && lib.checksBeforeExp(lib.parse(token).value.claims, now) == ChecksPass
              && ExpAccepted(lib.parse(token).value.claims, now)
              && lib.checksAfterExp(lib.parse(token).value.claims, now) == ChecksPass
    ensures r.Some? ==> r.value == lib.parse(token).value.claims
    ensures lib.parse(token).Some? && Expired(lib.parse(token).value.claims, now) ==> r.None?
  {
    match Decode(lib, token, key, now)
    case Decoded(c) => Some(c)
    case ExpiredSignature => None
    case InvalidToken => None
    case OtherError => None
  }

  /** A token accepted at one time is accepted at any earlier time its other claims allow. */
  lemma VerifyJwsExpiryMonotone(lib: JwtLibrary, token: string, key: Value, earlier: real, later: real)
    requires earlier <= later
    requires VerifyJws(lib, token, key, later).Some?
    requires lib.checksBeforeExp(lib.parse(token).value.claims, earlier) == ChecksPass
    requires lib.checksAfterExp(lib.parse(token).value.claims, earlier) == ChecksPass
    ensures VerifyJws(lib, token, key, earlier) == VerifyJws(lib, token, key, later)
  {
  }

  /**
   * The earlier claim checks decide before expiry does: an authentic token
   * that is both expired and rejected by the `nbf` or `iat` check ends in the
   * invalid-token handler, not the expired-signature one.
   */
  lemma EarlierChecksWinOverExpiry(lib: JwtLibrary, token: string, key: Value, now: real)
    requires Authentic(lib, token, key)
    requires Expired(lib.parse(token).value.claims, now)
    requires lib.checksBeforeExp(lib.parse(token).value.claims, now) == ChecksRejected
    ensures Decode(lib, token, key, now) == InvalidToken
  {
  }

  /** The `exp` value of the three conversion examples below. */
  const FarFutureExp := 9999999999

  /** `int()` reads the string "9999999999" as the number. */
  lemma FarFutureStringConverts()
    ensures IntOf(Str("9999999999")) == IntOk(FarFutureExp)
  {
    ParseIntDigits("9999999999");
    NinesValue();
  }

  lemma NinesValue()
    ensures DecimalValue("9999999999") == FarFutureExp
  {
    // The digits are read one at a time, each prefix's value from the previous one.
    assert DecimalValue("9") == 9;
    assert "99"[..1] == "9";
    assert DecimalValue("99") == 99;
    assert "999"[..2] == "99";
    assert DecimalValue("999") == 999;
    assert "9999"[..3] == "999";
    assert DecimalValue("9999") == 9999;
    assert "99999"[..4] == "9999";
    assert DecimalValue("99999") == 99999;
    assert "999999"[..5] == "99999";
    assert DecimalValue("999999") == 999999;
    assert "9999999"[..6] == "999999";
    assert DecimalValue("9999999") == 9999999;
    assert "99999999"[..7] == "9999999";
    assert DecimalValue("99999999") == 99999999;
    assert "999999999"[..8] == "99999999";
    assert DecimalValue("999999999") == 999999999;
    assert "9999999999"[..9] == "999999999";
    assert DecimalValue("9999999999") == 9999999999;
  }

  /**
   * An `exp` written as a decimal string is honoured like the number: an
   * authentic token whose other claims pass is accepted before that time.
   */
  lemma StringExpIsAccepted(lib: JwtLibrary, token: string, key: Value, now: real)
    requires Authentic(lib, token, key)
    requires var c := lib.parse(token).value.claims;
             && "exp" in c && c["exp"] == Str("9999999999")
             && lib.checksBeforeExp(c, now) == ChecksPass && lib.checksAfterExp(c, now) == ChecksPass
    requires now < FarFutureExp as real
    ensures VerifyJws(lib, token, key, now) == Some(lib.parse(token).value.claims)
  {
    FarFutureStringConverts();
  }

  /** `int(True)` is 1, so a boolean `exp` of true is a long-expired signature. */
  lemma BooleanExpIsExpired(lib: JwtLibrary, token: string, key: Value, now: real)
    requires Authentic(lib, token, key)
    requires var c := lib.parse(token).value.claims;
             "exp" in c && c["exp"] == Bool(true) && lib.checksBeforeExp(c, now) == ChecksPass
    requires now >= 1.0
    ensures Decode(lib, token, key, now) == ExpiredSignature
  {
  }

  /** `int(None)` raises TypeError, which only the host's generic handler catches. */
  lemma NullExpIsGenericError(lib: JwtLibrary, token: string, key: Value, now: real)
    requires Authentic(lib, token, key)
    requires var c := lib.parse(token).value.claims;
             "exp" in c && c["exp"] == Null && lib.checksBeforeExp(c, now) == ChecksPass
    ensures Decode(lib, token, key, now) == OtherError
  {
  }

  /**
   * The shape section 6.2.1 of RFC 7518 asks of a P-256 public key: `kty` is
   * "EC", `crv` is "P-256", and the coordinates `x` and `y` are non-empty.
   */
  predicate EcP256Shape(jwk: Value) {
    && jwk.Obj?
    && Get(jwk.fields, "kty") == Str("EC")
    && Get(jwk.fields, "crv") == Str("P-256")
    && Truthy(Get(jwk.fields, "x"))
    && Truthy(Get(jwk.fields, "y"))
  }

  /**
   * `validate_public_key`: the checks in order, then the key loader; calling
   * `.get` on something that is not a dictionary raises, which reads as False.
   */
  function ValidatePublicKey(lib: JwtLibrary, jwk: Value): (ok: bool)
    ensures ok <==> EcP256Shape(jwk) && lib.keyFromJwk(jwk)
    ensures jwk.Obj? && Get(jwk.fields, "kty") != Str("EC") ==> !ok
    ensures jwk.Obj? && Get(jwk.fields, "crv") != Str("P-256") ==> !ok
    ensures jwk.Obj? && (!Truthy(Get(jwk.fields, "x")) || !Truthy(Get(jwk.fields, "y"))) ==> !ok
  {
    if !jwk.Obj? then false
    else if Get(jwk.fields, "kty") != Str("EC") then false
    else if Get(jwk.fields, "crv") != Str("P-256") then false
    else if !Truthy(Get(jwk.fields, "x")) || !Truthy(Get(jwk.fields, "y")) then false
    else lib.keyFromJwk(jwk)
  }

  /**
   * A key that passed validation never makes verification fail at the key
   * loading step: the generic handler is then reached only by an authentic
   * token whose claim checks raise outside the library's token errors.
   */
  lemma ValidatedKeyLoads(lib: JwtLibrary, jwk: Value, token: string, now: real)
    requires ValidatePublicKey(lib, jwk)
    ensures lib.keyFromJwk(jwk)
    ensures Decode(lib, token, jwk, now) == OtherError ==>
              Authentic(lib, token, jwk) && ClaimsCrash(lib, lib.parse(token).value.claims, now)
  {
  }
}

=== FILE: image_manager.dfy ===
/**
 * The plugin-wide image cache: every asset is preloaded once, in a colour
 * ("regular") and a greyscale ("disabled") variant, under the key
 * `name + "__" + mode`.
 *
 * Decoding and greyscale conversion are not modelled: a cached picture is
 * named by the asset it came from and whether it is the grey variant.
 */
module ImageManager {
  import opened Wrappers

  datatype ImageMode = Regular | Disabled

  /** `mode.name.lower()`. */
  function ModeName(mode: ImageMode): string {
    match mode
    case Regular => "regular"
    case Disabled => "disabled"
  }

  /** The cache key `f"{name}__{mode}"`: the name, two underscores, the mode's name. */
  function CacheKey(name: string, mode: ImageMode): (k: string)
    ensures |k| == |name| + 2 + |ModeName(mode)|
    ensures k[..|name|] == name
    ensures k[|name|..] == "__" + ModeName(mode)
  {
    name + "__" + ModeName(mode)
  }

  /** "...regular" and "...disabled" end in different letters. */
  lemma LastLetter(name: string, mode: ImageMode)
    ensures var k := CacheKey(name, mode); k[|k| - 1] == (if mode == Regular then 'r' else 'd')
  {
  }

  /** Distinct (name, mode) pairs never share a cache key, whatever the names contain. */
  lemma {:induction false} CacheKeyInjective(n1: string, m1: ImageMode, n2: string, m2: ImageMode)
    requires CacheKey(n1, m1) == CacheKey(n2, m2)
    ensures n1 == n2 && m1 == m2
  {
    var k := CacheKey(n1, m1);
    LastLetter(n1, m1);
    LastLetter(n2, m2);
    assert m1 == m2;
    assert |n1| == |n2|;
    assert n1 == k[..|n1|] == n2;
  }

  /** A cached picture: the asset file it was read from, and whether it is the grey variant. */
  datatype Picture = Picture(file: string, grey: bool)

  /**
   * What the assets directory holds at a relative path: nothing, a file that
   * does not open as an image, an image whose greyscale conversion raises,
   * or an image that converts.
   */
  datatype FileState = Missing | Unreadable | GreyFails | Readable

  /** The file opens as an image, so at least its colour variant is stored. */
  predicate Opens(f: FileState) {
    f == GreyFails || f == Readable
  }

  type Disk = string -> FileState

  datatype Manager = Manager(cache: map<string, Picture>, initialized: bool, assetsPath: Option<string>)

  /** The class attributes before `initialize`. */
  const Fresh := Manager(map[], false, None)

  /** Every name is cached in both variants or in neither. */
  ghost predicate BothOrNeither(cache: map<string, Picture>) {
    forall n :: CacheKey(n, Regular) in cache <==> CacheKey(n, Disabled) in cache
  }

  /** Every cached picture is grey exactly when it is filed under the disabled key. */
  ghost predicate GreyMatchesKey(cache: map<string, Picture>) {
    forall n, m :: CacheKey(n, m) in cache ==> cache[CacheKey(n, m)].grey == (m == Disabled)
  }

  /** Filing a picture under a key keeps the grey flags right when the picture's flag matches that key. */
  lemma {:induction false} StoreKeepsGreyFlags(cache: map<string, Picture>, name: string, mode: ImageMode, p: Picture)
    requires GreyMatchesKey(cache)
    requires p.grey == (mode == Disabled)
    ensures GreyMatchesKey(cache[CacheKey(name, mode) := p])
  {
    var c := cache[CacheKey(name, mode) := p];
    forall n, m | CacheKey(n, m) in c
      ensures c[CacheKey(n, m)].grey == (m == Disabled)
    {
      if CacheKey(n, m) == CacheKey(name, mode) {
        CacheKeyInjective(n, m, name, mode);
      }
    }
  }

  /**
   * `_load_image`: a missing or unreadable file leaves the cache alone; an
   * image stores its colour variant, then its grey variant unless the
   * greyscale conversion raised first.
   */
  function LoadImage(cache: map<string, Picture>, name: string, path: string, disk: Disk): (c: map<string, Picture>)
    ensures !Opens(disk(path)) ==> c == cache
    ensures disk(path) == GreyFails ==> c == cache[CacheKey(name, Regular) := Picture(path, false)]
    ensures disk(path) == Readable ==>
              && c.Keys == cache.Keys + {CacheKey(name, Regular), CacheKey(name, Disabled)}
              && c[CacheKey(name, Regular)] == Picture(path, false)
              && c[CacheKey(name, Disabled)] == Picture(path, true)
              && (forall k :: k in cache && k != CacheKey(name, Regular) && k != CacheKey(name, Disabled) ==> c[k] == cache[k])
    ensures BothOrNeither(cache) && disk(path) != GreyFails ==> BothOrNeither(c)
    ensures GreyMatchesKey(cache) ==> GreyMatchesKey(c)
  {
    if !Opens(disk(path)) then cache
    else if disk(path) == GreyFails then
      var c := cache[CacheKey(name, Regular) := Picture(path, false)];
      assert GreyMatchesKey(cache) ==> GreyMatchesKey(c) by {
        if GreyMatchesKey(cache) { StoreKeepsGreyFlags(cache, name, Regular, Picture(path, false)); }
      }
      c
    else
      var c := cache[CacheKey(name, Regular) := Picture(path, false)][CacheKey(name, Disabled) := Picture(path, true)];
      assert BothOrNeither(cache) ==> BothOrNeither(c) by {
        if BothOrNeither(cache) {
          forall n
            ensures CacheKey(n, Regular) in c <==> CacheKey(n, Disabled) in c
          {
            if CacheKey(n, Regular) == CacheKey(name, Disabled) { CacheKeyInjective(n, Regular, name, Disabled); }
            if CacheKey(n, Disabled) == CacheKey(name, Regular) { CacheKeyInjective(n, Disabled, name, Regular); }
            if CacheKey(n, Regular) == CacheKey(name, Regular) { CacheKeyInjective(n, Regular, name, Regular); }
            if CacheKey(n, Disabled) == CacheKey(name, Disabled) { CacheKeyInjective(n, Disabled, name, Disabled); }
          }
        }
      }
      assert GreyMatchesKey(cache) ==> GreyMatchesKey(c) by {
        if GreyMatchesKey(cache) {
          var c1 := cache[CacheKey(name, Regular) := Picture(path, false)];
          StoreKeepsGreyFlags(cache, name, Regular, Picture(path, false));
          StoreKeepsGreyFlags(c1, name, Disabled, Picture(path, true));
        }
      }
      c
  }

  /** A failed greyscale conversion leaves a name cached in colour only. */
  lemma GreyFailureLeavesColourOnly(cache: map<string, Picture>, name: string, path: string, disk: Disk)
    requires disk(path) == GreyFails
    requires CacheKey(name, Disabled) !in cache
    ensures var c := LoadImage(cache, name, path, disk);
            CacheKey(name, Regular) in c && CacheKey(name, Disabled) !in c && !BothOrNeither(c)
  {
    var c := LoadImage(cache, name, path, disk);
    if CacheKey(name, Disabled) == CacheKey(name, Regular) {
      CacheKeyInjective(name, Disabled, name, Regular);
    }
    assert CacheKey(name, Disabled) !in c;
  }

  /** An asset to preload: cache name and path relative to the assets directory. */
  type Asset = (string, string)

  const CommonImages: seq<Asset> := [("error", "error.png"), ("success", "success.png"), ("failure", "failure.png")]
  const MicImages: seq<Asset> := [("mic_on", "mic_on.png"), ("mic_off", "mic_off.png")]
  const CameraImages: seq<Asset> := [("camera_on", "camera_on.png"), ("camera_off", "camera_off.png")]
  const HandImages: seq<Asset> := [("hand_raised", "hand_raised.png"), ("hand_lowered", "hand_lowered.png")]
  const InfoImages: seq<Asset> :=
    [("leave", "leave.png"), ("in_meeting", "in_meeting.png"), ("participants", "participants.png")]

  const ReactionIds: seq<string> :=
    ["sparkling_heart", "thumbs_up", "celebrate", "applause", "laugh", "surprised", "sad", "thinking", "thumbs_down"]

  /** Reaction images live in the `reactions` subdirectory under `reaction_<id>`. */
  function ReactionAsset(id: string): Asset {
    ("reaction_" + id, "reactions/" + id + ".png")
  }

  function ReactionImages(ids: seq<string>): (assets: seq<Asset>)
    ensures |assets| == |ids|
    ensures forall i :: 0 <= i < |ids| ==> assets[i] == ReactionAsset(ids[i])
  {
    if |ids| == 0 then [] else [ReactionAsset(ids[0])] + ReactionImages(ids[1..])
  }

  /** Everything `initialize` preloads, in its order. */
  function AllAssets(): seq<Asset> {
    CommonImages + MicImages + CameraImages + HandImages + InfoImages + ReactionImages(ReactionIds)
  }

  /** Loading a list of assets in order (`_preload_*` and `_load_image_from_subdir`). */
  function Preload(cache: map<string, Picture>, assets: seq<Asset>, disk: Disk): (c: map<string, Picture>)
    ensures cache.Keys <= c.Keys
    ensures (forall i :: 0 <= i < |assets| ==> !Opens(disk(assets[i].1))) ==> c == cache
    ensures GreyMatchesKey(cache) ==> GreyMatchesKey(c)
    decreases |assets|
  {
    if |assets| == 0 then cache
    else Preload(LoadImage(cache, assets[0].0, assets[0].1, disk), assets[1..], disk)
  }

  /** Every readable asset in the list ends up cached in both variants. */
  lemma {:induction false} PreloadLoadsReadable(cache: map<string, Picture>, assets: seq<Asset>, disk: Disk, i: nat, mode: ImageMode)
    requires i < |assets| && disk(assets[i].1) == Readable
    ensures CacheKey(assets[i].0, mode) in Preload(cache, assets, disk)
    decreases |assets|
  {
    var c1 := LoadImage(cache, assets[0].0, assets[0].1, disk);
    if i != 0 {
      assert assets[1..][i - 1] == assets[i];
      PreloadLoadsReadable(c1, assets[1..], disk, i - 1, mode);
    }
  }

  /** Every key preloading adds belongs to a readable asset of the list. */
  lemma {:induction false} PreloadAddsOnlyReadable(cache: map<string, Picture>, assets: seq<Asset>, disk: Disk, k: string)
    requires k in Preload(cache, assets, disk) && k !in cache
    ensures exists i :: 0 <= i < |assets| && Opens(disk(assets[i].1))
                        && (k == CacheKey(assets[i].0, Regular) || k == CacheKey(assets[i].0, Disabled))
    decreases |assets|
  {
    var c1 := LoadImage(cache, assets[0].0, assets[0].1, disk);
    if k in c1 {
      assert Opens(disk(assets[0].1));
    } else {
      PreloadAddsOnlyReadable(c1, assets[1..], disk, k);
      var j :| 0 <= j < |assets[1..]| && Opens(disk(assets[1..][j].1))
               && (k == CacheKey(assets[1..][j].0, Regular) || k == CacheKey(assets[1..][j].0, Disabled));
      assert assets[1..][j] == assets[j + 1];
    }
  }

  /** No asset of the list fails its greyscale conversion. */
  predicate NoGreyFailure(assets: seq<Asset>, disk: Disk) {
    forall i :: 0 <= i < |assets| ==> disk(assets[i].1) != GreyFails
  }

  /** Unless a greyscale conversion fails, preloading keeps the two variants of every name together. */
  lemma {:induction false} PreloadKeepsPairs(cache: map<string, Picture>, assets: seq<Asset>, disk: Disk)
    requires BothOrNeither(cache)
    requires NoGreyFailure(assets, disk)
    ensures BothOrNeither(Preload(cache, assets, disk))
    decreases |assets|
  {
    if |assets| > 0 {
      assert NoGreyFailure(assets[1..], disk) by {
        forall i | 0 <= i < |assets[1..]| ensures disk(assets[1..][i].1) != GreyFails {
          assert assets[1..][i] == assets[i + 1];
        }
      }
      assert disk(assets[0].1) != GreyFails;
      PreloadKeepsPairs(LoadImage(cache, assets[0].0, assets[0].1, disk), assets[1..], disk);
    }
  }

  datatype InitResult = InitResult(manager: Manager, raised: bool)

  /**
   * `initialize`: a no-op once initialized. Without an assets directory the
   * first path join raises, which `initialize` logs and re-raises, leaving the
   * manager uninitialized.
   */
  function Initialize(m: Manager, assetsPath: Option<string>, disk: Disk): (r: InitResult)
    ensures m.initialized ==> r == InitResult(m, false)
    ensures r.manager.initialized <==> m.initialized || assetsPath.Some?
    ensures r.raised <==> !m.initialized && assetsPath.None?
    ensures r.raised ==> r.manager.cache == m.cache
    ensures !m.initialized && assetsPath.Some? ==>
              forall i, mode :: 0 <= i < |AllAssets()| && disk(AllAssets()[i].1) == Readable ==>
                CacheKey(AllAssets()[i].0, mode) in r.manager.cache
    ensures BothOrNeither(m.cache) && NoGreyFailure(AllAssets(), disk) ==> BothOrNeither(r.manager.cache)
    ensures GreyMatchesKey(m.cache) ==> GreyMatchesKey(r.manager.cache)
  {
    if m.initialized then InitResult(m, false)
    else if assetsPath.None? then InitResult(m.(assetsPath := None), true)
    else
      var c := Preload(m.cache, AllAssets(), disk);
      assert forall i, mode :: 0 <= i < |AllAssets()| && disk(AllAssets()[i].1) == Readable ==> CacheKey(AllAssets()[i].0, mode) in c by {
        forall i, mode | 0 <= i < |AllAssets()| && disk(AllAssets()[i].1) == Readable
          ensures CacheKey(AllAssets()[i].0, mode) in c
        {
          PreloadLoadsReadable(m.cache, AllAssets(), disk, i, mode);
        }
      }
      assert BothOrNeither(m.cache) && NoGreyFailure(AllAssets(), disk) ==> BothOrNeither(c) by {
        if BothOrNeither(m.cache) && NoGreyFailure(AllAssets(), disk) { PreloadKeepsPairs(m.cache, AllAssets(), disk); }
      }
      InitResult(Manager(c, true, assetsPath), false)
  }

  /** A second `initialize` changes nothing, whatever directory it names. */
  lemma InitializeIdempotent(m: Manager, a1: Option<string>, a2: Option<string>, disk1: Disk, disk2: Disk)
    requires a1.Some?
    ensures var first := Initialize(m, a1, disk1).manager;
            Initialize(first, a2, disk2) == InitResult(first, false)
  {
  }

  /** `get_image`: None before initialization, otherwise the cached variant if any. */
  function GetImage(m: Manager, name: string, mode: ImageMode): (img: Option<Picture>)
    ensures !m.initialized ==> img.None?
    ensures img.Some? <==> m.initialized && CacheKey(name, mode) in m.cache
    ensures img.Some? ==> img.value == m.cache[CacheKey(name, mode)]
  {
    if !m.initialized then None
    else if CacheKey(name, mode) in m.cache then Some(m.cache[CacheKey(name, mode)])
    else None
  }

  /** With the grey flags right, the picture served for a mode is grey exactly for the disabled mode. */
  lemma ServedVariantMatchesMode(m: Manager, name: string, mode: ImageMode)
    requires GreyMatchesKey(m.cache)
    requires GetImage(m, name, mode).Some?
    ensures GetImage(m, name, mode).value.grey <==> mode == Disabled
  {
  }

  /** When a name's colour variant is available, so is its grey one. */
  lemma VariantsComeTogether(m: Manager, name: string)
    requires BothOrNeither(m.cache)
    ensures GetImage(m, name, Regular).Some? <==> GetImage(m, name, Disabled).Some?
  {
    assert CacheKey(name, Regular) in m.cache <==> CacheKey(name, Disabled) in m.cache;
  }

  /** Starting fresh, a readable reaction asset is served in both variants under `reaction_<id>`. */
  lemma ReactionImagesPreloaded(assetsPath: string, disk: Disk, id: string, mode: ImageMode)
    requires id in ReactionIds
    requires disk("reactions/" + id + ".png") == Readable
    ensures GetImage(Initialize(Fresh, Some(assetsPath), disk).manager, "reaction_" + id, mode).Some?
  {
    var i :| 0 <= i < |ReactionIds| && ReactionIds[i] == id;
    var all := AllAssets();
    var offset := |CommonImages + MicImages + CameraImages + HandImages + InfoImages|;
    assert all[offset + i] == ReactionAsset(id);
  }
}

=== FILE: in_meeting_status.dfy ===
/** The informational key that shows whether the browser is in a meeting. */
module InMeetingStatus {
  import opened Wrappers
  import opened Json
  import ImageManager
  import opened ActionBase

  /** The label for a meeting flag. */
  function StatusLabel(inMeeting: bool): Draw {
    if inMeeting then SetBottomLabel("IN MEETING", 11) else SetBottomLabel("NOT IN MEETING", 10)
  }

  /**
   * `render_state`: the meeting picture in the variant of the connection
   * state when cached, then always a label saying whether `in_meeting` is
   * truthy (False when absent).
   */
  function RenderState(images: ImageManager.Manager, state: StateDict, cs: ConnectionState): (draws: seq<Draw>)
    ensures var img := ImageManager.GetImage(images, "in_meeting", VariantFor(cs));
            && 1 <= |draws| <= 2
            && (SetBottomLabel("IN MEETING", 11) in draws <==> Truthy(GetOr(state, "in_meeting", Bool(false))))
            && (SetBottomLabel("NOT IN MEETING", 10) in draws <==> !Truthy(GetOr(state, "in_meeting", Bool(false))))
            && draws[|draws| - 1].SetBottomLabel?
            && (|draws| == 2 <==> img.Some?)
            && (|draws| == 2 ==> draws[0] == SetMedia(img, 0.9))
    ensures ImageManager.GreyMatchesKey(images.cache) && |draws| == 2 ==>
              (draws[0].image.value.grey <==> cs != Connected)
  {
    var img := ImageIn(images, "in_meeting", cs);
    assert ImageManager.GreyMatchesKey(images.cache) && img.Some? ==> (img.value.grey <==> cs != Connected) by {
      if ImageManager.GreyMatchesKey(images.cache) && img.Some? {
        DrawnPictureGreyOutsideCall(images, "in_meeting", cs);
      }
    }
    MediaIfAny(img, 0.9) + [StatusLabel(Truthy(GetOr(state, "in_meeting", Bool(false))))]
  }

  /**
   * With the action's own state (none beyond the shared keys), the label says
   * "IN MEETING" exactly when the backend's meeting answer is truthy, and the
   * picture is in colour exactly when also connected.
   */
  lemma LabelMatchesMeeting(images: ImageManager.Manager, connected: bool, inMeeting: Value)
    ensures var u := OnReady(connected, inMeeting, map[]);
            var draws := RenderState(images, u.render.value.state, u.render.value.connectionState);
            && (SetBottomLabel("IN MEETING", 11) in draws <==> Truthy(inMeeting))
            && (SetBottomLabel("NOT IN MEETING", 10) in draws <==> !Truthy(inMeeting))
            && draws[..|draws| - 1]
                 == MediaIfAny(ImageManager.GetImage(images, "in_meeting",
                                 if connected && Truthy(inMeeting) then ImageManager.Regular else ImageManager.Disabled), 0.9)
  {
    var u := OnReady(connected, inMeeting, map[]);
    var st := u.render.value.state;
    assert GetOr(st, "in_meeting", Bool(false)) == inMeeting;
  }
}

=== FILE: json.dfy ===
/**
 * Decoded JSON values as the Python code sees them after `json.loads`:
 * dictionaries, lists, strings, integers, booleans and `None`.
 */
module Json {
  import opened Wrappers

  datatype Value =
    | Null
    | Bool(b: bool)
    | Num(n: int)
    | Str(s: string)
    | Arr(items: seq<Value>)
    | Obj(fields: map<string, Value>)

  type Object = map<string, Value>

  /** Python truthiness: `None`, `False`, `0`, `""`, `[]` and `{}` are false. */
  predicate Truthy(v: Value) {
    match v
    case Null => false
    case Bool(b) => b
    case Num(n) => n != 0
    case Str(s) => s != ""
    case Arr(items) => |items| > 0
    case Obj(fields) => |fields| > 0
  }

  /** `d.get(k)`: the stored value, or `None` when the key is absent. */
  function Get(d: Object, k: string): Value {
    if k in d then d[k] else Null
  }

  /** `d.get(k, default)`. */
  function GetOr(d: Object, k: string, default: Value): Value {
    if k in d then d[k] else default
  }

  /** Truthiness of an optional string field (`not field` is true for `None` and `""`). */
  predicate Present(f: Option<string>) {
    f.Some? && f.value != ""
  }

  // ---------------------------------------------------------------------
  // `int(v)` in base 10
  // ---------------------------------------------------------------------

  /** Python's `int(v)`: a number, a ValueError, or a TypeError. */
  datatype IntConversion = IntOk(n: int) | IntValueError | IntTypeError

  predicate IsDigit(c: char) {
    '0' <= c <= '9'
  }

  /** The characters `str.isspace()` accepts, which `int()` skips around the number. */
  predicate IsSpace(c: char) {
    || c == ' ' || '\t' <= c <= '\r' || '\U{1C}' <= c <= '\U{1F}'
    || c == '\U{85}' || c == '\U{A0}' || c == '\U{1680}' || '\U{2000}' <= c <= '\U{200A}'
    || c == '\U{2028}' || c == '\U{2029}' || c == '\U{202F}' || c == '\U{205F}' || c == '\U{3000}'
  }

  /** `s` without its leading white space. */
  function TrimStart(s: string): (t: string)
    ensures |t| <= |s| && t == s[|s| - |t|..]
    ensures |t| > 0 ==> !IsSpace(t[0])
    decreases |s|
  {
    if |s| > 0 && IsSpace(s[0]) then TrimStart(s[1..]) else s
  }

  /** `s` without its trailing white space. */
  function TrimEnd(s: string): (t: string)
    ensures |t| <= |s| && t == s[..|t|]
    ensures |t| > 0 ==> !IsSpace(t[|t| - 1])
    decreases |s|
  {
    if |s| > 0 && IsSpace(s[|s| - 1]) then TrimEnd(s[..|s| - 1]) else s
  }

  /** `s.strip()`. */
  function Strip(s: string): string {
    TrimEnd(TrimStart(s))
  }

  /** Decimal digits in groups of one or more, separated by single underscores. */
  predicate DigitGroups(s: string) {
    && |s| > 0
    && (forall i :: 0 <= i < |s| ==> IsDigit(s[i]) || s[i] == '_')
    && IsDigit(s[0]) && IsDigit(s[|s| - 1])
    && (forall i :: 0 <= i < |s| - 1 && s[i] == '_' ==> IsDigit(s[i + 1]))
  }

  /** The digits of `s`, in order, without the underscores. */
  function DropUnderscores(s: string): (d: string)
    ensures |d| <= |s|
    ensures (forall i :: 0 <= i < |s| ==> s[i] != '_') ==> d == s
    decreases |s|
  {
    if |s| == 0 then ""
    else (if s[0] == '_' then "" else [s[0]]) + DropUnderscores(s[1..])
  }

  /** The number a string of decimal digits denotes. */
  function DecimalValue(s: string): int
    decreases |s|
  {
    if |s| == 0 then 0 else DecimalValue(s[..|s| - 1]) * 10 + (s[|s| - 1] as int - '0' as int)
  }

  /** Digit groups read as the number they spell; any other text is None. */
  function ParseDigits(t: string): Option<int> {
    if DigitGroups(t) then Some(DecimalValue(DropUnderscores(t))) else None
  }

  /**
   * `int(s)` for a string: white space around an optional sign and digit
   * groups; anything else raises ValueError (None here).
   */
  function ParseInt(s: string): Option<int> {
    var t := Strip(s);
    if |t| > 0 && t[0] == '-' then
      match ParseDigits(t[1..])
      case None => None
      case Some(v) => Some(-v)
    else if |t| > 0 && t[0] == '+' then ParseDigits(t[1..])
    else ParseDigits(t)
  }

  /**
   * `int(v)` on a decoded JSON value: booleans are 0 and 1, integers are
   * themselves, strings are parsed, and `None`, lists and dictionaries
   * raise TypeError.
   */
  function IntOf(v: Value): (r: IntConversion)
    ensures r == IntTypeError <==> v.Null? || v.Arr? || v.Obj?
    ensures r == IntValueError ==> v.Str? && ParseInt(v.s).None?
    ensures v.Bool? ==> r == IntOk(if v.b then 1 else 0)
    ensures v.Num? ==> r == IntOk(v.n)
    ensures v.Str? && ParseInt(v.s).Some? ==> r == IntOk(ParseInt(v.s).value)
  {
    match v
    case Null => IntTypeError
    case Bool(b) => IntOk(if b then 1 else 0)
    case Num(n) => IntOk(n)
    case Str(s) => if ParseInt(s).Some? then IntOk(ParseInt(s).value) else IntValueError
    case Arr(_) => IntTypeError
    case Obj(_) => IntTypeError
  }

  /** A plain digit string, as `str` writes a natural number, parses to the number it denotes. */
  lemma ParseIntDigits(s: string)
    requires |s| > 0 && forall i :: 0 <= i < |s| ==> IsDigit(s[i])
    ensures ParseInt(s) == Some(DecimalValue(s))
  {
    ParseIntUnpadded(s);
    ParseDigitsPlain(s);
  }

  lemma ParseDigitsPlain(s: string)
    requires |s| > 0 && forall i :: 0 <= i < |s| ==> IsDigit(s[i])
    ensures ParseDigits(s) == Some(DecimalValue(s))
  {
    assert DigitGroups(s);
    assert DropUnderscores(s) == s;
  }

  lemma ParseIntUnpadded(s: string)
    requires |s| > 0 && forall i :: 0 <= i < |s| ==> IsDigit(s[i])
    ensures ParseInt(s) == ParseDigits(s)
  {
    assert !IsSpace(s[0]) && !IsSpace(s[|s| - 1]);
    assert TrimStart(s) == s;
    assert Strip(s) == s;
    assert s[0] != '-' && s[0] != '+';
  }

  /** White space around the text does not change what `int()` reads. */
  lemma ParseIntIgnoresPadding(pre: string, s: string, post: string)
    requires forall i :: 0 <= i < |pre| ==> IsSpace(pre[i])
    requires forall i :: 0 <= i < |post| ==> IsSpace(post[i])
    ensures ParseInt(pre + s + post) == ParseInt(s)
  {
    StripIgnoresPadding(pre, s, post);
  }

  lemma StripIgnoresPadding(pre: string, s: string, post: string)
    requires forall i :: 0 <= i < |pre| ==> IsSpace(pre[i])
    requires forall i :: 0 <= i < |post| ==> IsSpace(post[i])
    ensures Strip(pre + s + post) == Strip(s)
  {
    assert pre + s + post == pre + (s + post);
    TrimStartPadding(pre, s + post);
    TrimStartKeepsEnd(s, post);
    if TrimStart(s + post) == TrimStart(s) + post {
      TrimEndPadding(TrimStart(s), post);
    }
  }

  lemma {:induction false} TrimStartPadding(pre: string, s: string)
    requires forall i :: 0 <= i < |pre| ==> IsSpace(pre[i])
    ensures TrimStart(pre + s) == TrimStart(s)
    decreases |pre|
  {
    if |pre| > 0 {
      assert (pre + s)[0] == pre[0];
      assert (pre + s)[1..] == pre[1..] + s;
      TrimStartPadding(pre[1..], s);
    } else {
      assert pre + s == s;
    }
  }

  lemma {:induction false} TrimEndPadding(s: string, post: string)
    requires forall i :: 0 <= i < |post| ==> IsSpace(post[i])
    ensures TrimEnd(s + post) == TrimEnd(s)
    decreases |post|
  {
    if |post| > 0 {
      var p' := post[..|post| - 1];
      assert (s + post)[|s + post| - 1] == post[|post| - 1];
      assert (s + post)[..|s + post| - 1] == s + p';
      TrimEndPadding(s, p');
    } else {
      assert s + post == s;
    }
  }

  /** Trailing text survives the leading strip, unless everything before it was white space. */
  lemma {:induction false} TrimStartKeepsEnd(s: string, post: string)
    requires forall i :: 0 <= i < |post| ==> IsSpace(post[i])
    ensures TrimStart(s + post) == TrimStart(s) + post || (TrimStart(s) == "" && TrimStart(s + post) == "")
    decreases |s|
  {
    if |s| > 0 && IsSpace(s[0]) {
      assert (s + post)[1..] == s[1..] + post;
      TrimStartKeepsEnd(s[1..], post);
    } else if |s| == 0 {
      TrimStartPadding(post, "");
      assert post + "" == post;
    }
  }
}

=== FILE: leave_call.dfy ===
/**
 * The key that leaves the current call. `inMeeting` is the truthiness of
 * what `get_in_meeting` returned.
 */
module LeaveCall {
  import opened Wrappers
  import ImageManager
  import opened ActionBase

  /** The mode `update_state` asks for: greyed outside a call. */
  function ModeFor(connected: bool, inMeeting: bool): ImageManager.ImageMode {
    if !connected || !inMeeting then ImageManager.Disabled else ImageManager.Regular
  }

  /**
   * The picture `update_state` draws, as written: the mode goes into the
   * connection-state position of `get_image`, where an `ImageMode` never
   * names a greyed state, so the colour picture is always chosen.
   */
  function LeaveImageAsWritten(images: ImageManager.Manager, connected: bool, inMeeting: bool)
    : (img: Option<ImageManager.Picture>)
    ensures img == ImageManager.GetImage(images, "leave", ImageManager.Regular)
  {
    GetImage(images, "leave", Some(ModeObject(ModeFor(connected, inMeeting))), None)
  }

  /** The picture `update_state` is evidently meant to draw, passing the mode by name. */
  function LeaveImage(images: ImageManager.Manager, connected: bool, inMeeting: bool): (img: Option<ImageManager.Picture>)
    ensures img == ImageManager.GetImage(images, "leave",
                     if connected && inMeeting then ImageManager.Regular else ImageManager.Disabled)
  {
    GetImage(images, "leave", None, Some(ModeFor(connected, inMeeting)))
  }

  /** The intended picture is the one a derived connection state selects. */
  lemma LeaveImageFollowsConnectionState(images: ImageManager.Manager, connected: bool, inMeeting: bool)
    ensures LeaveImage(images, connected, inMeeting) == ImageIn(images, "leave", DeriveConnectionState(connected, inMeeting))
  {
  }

  /** With both variants cached, the as-written key shows colour while the intended key is greyed. */
  lemma LeaveImageDiffers(images: ImageManager.Manager, inMeeting: bool)
    requires images.initialized
    requires ImageManager.CacheKey("leave", ImageManager.Regular) in images.cache
    requires ImageManager.CacheKey("leave", ImageManager.Disabled) in images.cache
    requires images.cache[ImageManager.CacheKey("leave", ImageManager.Regular)]
             != images.cache[ImageManager.CacheKey("leave", ImageManager.Disabled)]
    ensures LeaveImageAsWritten(images, false, inMeeting) != LeaveImage(images, false, inMeeting)
  {
  }

  /**
   * `update_state` (and so `on_ready` and `on_tick`), as written: the picture
   * is set every time, even when missing, and it is the colour one whether
   * or not a call is going on.
   */
  function UpdateState(images: ImageManager.Manager, connected: bool, inMeeting: bool): (draws: seq<Draw>)
    ensures |draws| == 1
    ensures draws[0] == SetMedia(ImageManager.GetImage(images, "leave", ImageManager.Regular), 0.9)
  {
    [SetMedia(LeaveImageAsWritten(images, connected, inMeeting), 0.9)]
  }

  /** As written, the key looks the same in and out of a call. */
  lemma KeyIgnoresConnectionState(images: ImageManager.Manager, connected: bool, inMeeting: bool)
    ensures UpdateState(images, connected, inMeeting) == UpdateState(images, true, true)
  {
  }

  /** `update_state` as evidently intended: the picture of the derived connection state, grey outside a call. */
  function UpdateStateIntended(images: ImageManager.Manager, connected: bool, inMeeting: bool): (draws: seq<Draw>)
    ensures |draws| == 1
    ensures draws[0] == SetMedia(ImageIn(images, "leave", DeriveConnectionState(connected, inMeeting)), 0.9)
    ensures ImageManager.GreyMatchesKey(images.cache) && draws[0].image.Some? ==>
              (draws[0].image.value.grey <==> !(connected && inMeeting))
  {
    var img := LeaveImage(images, connected, inMeeting);
    assert ImageManager.GreyMatchesKey(images.cache) && img.Some? ==> (img.value.grey <==> !(connected && inMeeting)) by {
      if ImageManager.GreyMatchesKey(images.cache) && img.Some? {
        DrawnPictureGreyOutsideCall(images, "leave", DeriveConnectionState(connected, inMeeting));
      }
    }
    [SetMedia(img, 0.9)]
  }

  /**
   * `on_key_down`: outside a call, flash the error for a second; otherwise
   * leave, flashing the error if that raised (a missing backend raises too).
   */
  function OnKeyDown(connected: bool, inMeeting: bool, call: CallOutcome): (effects: seq<KeyEffect>)
    ensures Invoke("leave_call", None) in effects <==> connected && inMeeting && call != NoBackendToCall
    ensures ShowError(1.0) in effects <==> !connected || !inMeeting || call != CallReturned
    ensures forall e :: e in effects ==> e == Invoke("leave_call", None) || e == ShowError(1.0)
  {
    if !connected || !inMeeting then [ShowError(1.0)]
    else match call
      case NoBackendToCall => [ShowError(1.0)]
      case CallRaised => [Invoke("leave_call", None), ShowError(1.0)]
      case CallReturned => [Invoke("leave_call", None)]
  }

  /** A press leaves the call exactly in a call, which is when the intended key is in colour. */
  lemma PressLeavesOnlyWhenKeyIsLive(images: ImageManager.Manager, connected: bool, inMeeting: bool, call: CallOutcome)
    requires call != NoBackendToCall
    ensures (Invoke("leave_call", None) in OnKeyDown(connected, inMeeting, call))
            <==> DeriveConnectionState(connected, inMeeting) == Connected
    ensures Invoke("leave_call", None) in OnKeyDown(connected, inMeeting, call) ==>
              UpdateStateIntended(images, connected, inMeeting)[0].image
                == ImageManager.GetImage(images, "leave", ImageManager.Regular)
  {
  }
}

=== FILE: meets_controller.dfy ===
/**
 * The host's per-message decisions: handshake validation, the signature gate
 * in front of every other message, the state merge, approval bookkeeping,
 * disconnect cleanup and the command-send guard.
 *
 * Sockets, the event loop and the 60-second approval wait are not modelled:
 * each handler is a pure step from a controller value to a new controller
 * value and the effects it performs, and the operator's answer to an
 * approval request arrives as an explicit event.
 */
module MeetsController {
  import opened Wrappers
  import opened Json
  import opened CryptoManager
  import PairingManager

  type InstanceKey = PairingManager.InstanceKey
  type Registry = PairingManager.Registry

  /** One WebSocket connection, by identity. */
  type ConnId = nat

  /** The meeting state reported by the extension; values are stored exactly as received. */
  datatype MeetingState = MeetingState(
    micEnabled: Value,
    cameraEnabled: Value,
    handRaised: Value,
    inMeeting: Value,
    meetingId: Value,
    meetingName: Value,
    participantCount: Value)

  /** The state before any report and after the active connection closes. */
  const DefaultState := MeetingState(Bool(false), Bool(false), Bool(false), Bool(false), Null, Null, Num(0))

  /** The names under which the seven fields travel on the wire. */
  const StateFields: set<string> :=
    {"mic_enabled", "camera_enabled", "hand_raised", "in_meeting", "meeting_id", "meeting_name", "participant_count"}

  /** The field stored under a wire name (Null for names that are not state fields). */
  function Field(s: MeetingState, name: string): Value {
    if name == "mic_enabled" then s.micEnabled
    else if name == "camera_enabled" then s.cameraEnabled
    else if name == "hand_raised" then s.handRaised
    else if name == "in_meeting" then s.inMeeting
    else if name == "meeting_id" then s.meetingId
    else if name == "meeting_name" then s.meetingName
    else if name == "participant_count" then s.participantCount
    else Null
  }

  /**
   * A decoded inbound message. `publicKey` is Null when absent, `metadata`
   * is `{}` when absent, and `data` is `{}` when absent.
   */
  datatype Envelope = Envelope(
    msgType: Option<string>,
    extensionId: Option<string>,
    instanceId: Option<string>,
    token: Option<string>,
    publicKey: Value,
    metadata: Value,
    data: Object)

  /** `data.get("type")` as a JSON value. */
  function TypeValue(env: Envelope): Value {
    if env.msgType.Some? then Str(env.msgType.value) else Null
  }

  datatype Reply =
    | ErrorReply(code: string, message: string)
    | HandshakeSuccess(message: string)
    | HandshakePending
    | HandshakeDenied
    | HandshakeTimeout
    | HeartbeatAck
    | Command(action: string, data: Object)

  datatype Effect =
    | Send(conn: ConnId, reply: Reply)
    | Notify(state: MeetingState)
    | Close(conn: ConnId, code: int, reason: string)

  /** An approval future left in the table: still waiting, or cancelled by the handshake's timeout. */
  datatype FutureStatus = Waiting | Cancelled
  datatype Future = Future(ticket: nat, status: FutureStatus)

  datatype Controller = Controller(
    pairing: Registry,
    activeConnection: Option<ConnId>,
    extensionId: Option<string>,
    instanceId: Option<string>,
    connected: bool,
    state: MeetingState,
    pendingApproval: map<InstanceKey, Future>,
    nextTicket: nat)

  /** A fresh controller over a loaded registry: no connection, the default state, no waiting approvals. */
  function Init(pairing: Registry): (c: Controller)
    ensures c.pairing == pairing
    ensures c.activeConnection.None? && !c.connected
    ensures c.state == DefaultState && c.pendingApproval == map[]
    ensures PairingManager.Valid(pairing) ==> Inv(c)
  {
    Controller(pairing, None, None, None, false, DefaultState, map[], 0)
  }

  /**
   * The controller's invariant: the flag `connected` tracks the active
   * connection, an active connection always has an identity, and the
   * registry keeps pending and authorized disjoint.
   */
  ghost predicate Inv(c: Controller) {
    && (c.connected <==> c.activeConnection.Some?)
    && (c.activeConnection.Some? ==> c.extensionId.Some? && c.instanceId.Some?)
    && PairingManager.Valid(c.pairing)
  }

  // ---------------------------------------------------------------------
  // Approval bookkeeping
  // ---------------------------------------------------------------------

  datatype Approval = AlreadyApproved | Awaiting(ticket: nat)

  /** A future in the table was resolved with the operator's answer. */
  datatype Resolution = Resolution(ticket: nat, approved: bool)

  /**
   * `request_approval`: an authorized instance gets an already-true answer
   * and nothing is recorded; otherwise a fresh waiting future is filed
   * under the key, replacing any older one.
   */
  function RequestApproval(c: Controller, req: PairingManager.PairingRequest): (res: (Controller, Approval))
    ensures PairingManager.IsAuthorized(c.pairing, req.extensionId, req.instanceId) ==>
              res == (c, AlreadyApproved)
    ensures !PairingManager.IsAuthorized(c.pairing, req.extensionId, req.instanceId) ==>
              && res.1 == Awaiting(c.nextTicket)
              && res.0.pendingApproval == c.pendingApproval[PairingManager.KeyOf(req) := Future(c.nextTicket, Waiting)]
              && res.0 == c.(pendingApproval := res.0.pendingApproval, nextTicket := c.nextTicket + 1)
  {
    var key := PairingManager.KeyOf(req);
    if PairingManager.IsAuthorized(c.pairing, req.extensionId, req.instanceId) then
      (c, AlreadyApproved)
    else
      (c.(pendingApproval := c.pendingApproval[key := Future(c.nextTicket, Waiting)], nextTicket := c.nextTicket + 1),
       Awaiting(c.nextTicket))
  }

  /** Removes the key's future from the table and resolves it with `answer` unless it was cancelled. */
  function ResolveFuture(c: Controller, key: InstanceKey, answer: bool): (res: (Controller, Option<Resolution>))
    ensures key !in res.0.pendingApproval
    ensures res.0 == c.(pendingApproval := c.pendingApproval - {key})
    ensures res.1.Some? <==> key in c.pendingApproval && c.pendingApproval[key].status == Waiting
    ensures res.1.Some? ==> res.1.value == Resolution(c.pendingApproval[key].ticket, answer)
  {
    var c' := c.(pendingApproval := c.pendingApproval - {key});
    if key in c.pendingApproval && c.pendingApproval[key].status == Waiting then
      (c', Some(Resolution(c.pendingApproval[key].ticket, answer)))
    else (c', None)
  }

  /** `approve_instance`: the registry approves, then a waiting future is resolved with True. */
  function ApproveInstance(c: Controller, ext: string, inst: string): (res: (Controller, Option<Resolution>))
    ensures res.0 == c.(pairing := PairingManager.ApproveInstance(c.pairing, ext, inst).0,
                        pendingApproval := c.pendingApproval - {PairingManager.InstanceKey(ext, inst)})
    ensures PairingManager.InstanceKey(ext, inst) !in res.0.pendingApproval
    ensures res.1.Some? ==> res.1.value.approved
    ensures res.1.Some? <==> PairingManager.InstanceKey(ext, inst) in c.pendingApproval
                             && c.pendingApproval[PairingManager.InstanceKey(ext, inst)].status == Waiting
    ensures Inv(c) ==> Inv(res.0)
  {
    var c1 := c.(pairing := PairingManager.ApproveInstance(c.pairing, ext, inst).0);
    ResolveFuture(c1, PairingManager.InstanceKey(ext, inst), true)
  }

  /** `deny_instance`: the registry drops the pending request, then a waiting future is resolved with False. */
  function DenyInstance(c: Controller, ext: string, inst: string): (res: (Controller, Option<Resolution>))
    ensures res.0 == c.(pairing := PairingManager.DenyInstance(c.pairing, ext, inst).0,
                        pendingApproval := c.pendingApproval - {PairingManager.InstanceKey(ext, inst)})
    ensures PairingManager.InstanceKey(ext, inst) !in res.0.pendingApproval
    ensures res.1.Some? ==> !res.1.value.approved
    ensures res.1.Some? <==> PairingManager.InstanceKey(ext, inst) in c.pendingApproval
                             && c.pendingApproval[PairingManager.InstanceKey(ext, inst)].status == Waiting
    ensures Inv(c) ==> Inv(res.0)
  {
    var c1 := c.(pairing := PairingManager.DenyInstance(c.pairing, ext, inst).0);
    ResolveFuture(c1, PairingManager.InstanceKey(ext, inst), false)
  }

  /**
   * A request filed for an unauthorized instance is answered True by
   * approval and False by denial, with the ticket it was filed under.
   */
  lemma ApprovalAnswersTheWaitingRequest(c: Controller, req: PairingManager.PairingRequest)
    requires !PairingManager.IsAuthorized(c.pairing, req.extensionId, req.instanceId)
    ensures var (c1, a) := RequestApproval(c, req);
            && ApproveInstance(c1, req.extensionId, req.instanceId).1 == Some(Resolution(a.ticket, true))
            && DenyInstance(c1, req.extensionId, req.instanceId).1 == Some(Resolution(a.ticket, false))
  {
  }

  /** The revoked instance owns the live connection. */
  predicate LiveInstance(c: Controller, ext: string, inst: string) {
    c.extensionId == Some(ext) && c.instanceId == Some(inst) && c.activeConnection.Some?
  }

  /** What `revoke_instance` did: the new controller, the effects it performed, and whether it raised. */
  datatype Revoked = Revoked(ctrl: Controller, effects: seq<Effect>, raised: bool)

  /**
   * `revoke_instance` as the settings page calls it, through the backend
   * proxy on a thread other than the event loop's: the registry forgets the
   * instance first; then, for the live instance, `asyncio.create_task` finds
   * no running loop and raises RuntimeError, so the connection is never
   * closed.
   */
  function RevokeInstance(c: Controller, ext: string, inst: string): (r: Revoked)
    ensures r.ctrl == c.(pairing := PairingManager.RevokeInstance(c.pairing, ext, inst).0)
    ensures r.effects == []
    ensures r.raised <==> LiveInstance(c, ext, inst)
    ensures Inv(c) ==> Inv(r.ctrl)
  {
    Revoked(c.(pairing := PairingManager.RevokeInstance(c.pairing, ext, inst).0), [], LiveInstance(c, ext, inst))
  }

  /**
   * `revoke_instance` with the close scheduled on the event loop
   * (`run_coroutine_threadsafe`, as the command wrappers do): the registry
   * forgets the instance, and the live connection is closed when it belongs
   * to that instance.
   */
  function RevokeInstanceIntended(c: Controller, ext: string, inst: string): (r: Revoked)
    ensures r.ctrl == c.(pairing := PairingManager.RevokeInstance(c.pairing, ext, inst).0)
    ensures !r.raised
    ensures |r.effects| <= 1
    ensures |r.effects| == 1 <==> LiveInstance(c, ext, inst)
    ensures |r.effects| == 1 ==> r.effects[0] == Close(c.activeConnection.value, 1000, "Instance revoked")
    ensures Inv(c) ==> Inv(r.ctrl)
  {
    var c' := c.(pairing := PairingManager.RevokeInstance(c.pairing, ext, inst).0);
    if LiveInstance(c, ext, inst) then Revoked(c', [Close(c.activeConnection.value, 1000, "Instance revoked")], false)
    else Revoked(c', [], false)
  }

  /**
   * For the live instance the two differ: as written the call raises and the
   * socket stays open, where the intended call closes it; both forget the
   * instance in the registry.
   */
  lemma RevokeInstanceDiffers(c: Controller, ext: string, inst: string)
    requires LiveInstance(c, ext, inst)
    ensures RevokeInstance(c, ext, inst).ctrl == RevokeInstanceIntended(c, ext, inst).ctrl
    ensures RevokeInstance(c, ext, inst).raised && RevokeInstance(c, ext, inst).effects == []
    ensures RevokeInstanceIntended(c, ext, inst).effects == [Close(c.activeConnection.value, 1000, "Instance revoked")]
  {
  }

  /**
   * As written, the revoked instance's socket stays the active connection,
   * so the keys' commands still reach it after the revocation.
   */
  lemma CommandsStillReachRevokedConnection(c: Controller, ext: string, inst: string, action: string)
    requires LiveInstance(c, ext, inst)
    ensures !PairingManager.IsAuthorized(RevokeInstance(c, ext, inst).ctrl.pairing, ext, inst)
    ensures SendCommand(RevokeInstance(c, ext, inst).ctrl, action, None, true)
              == (true, [Send(c.activeConnection.value, Command(action, map[]))])
  {
  }

  // ---------------------------------------------------------------------
  // The signature gate
  // ---------------------------------------------------------------------

  /**
   * `_verify_message`: required fields, then authorization, then the stored
   * key, then the signature, then the instance id inside the token.
   */
  function VerifyMessage(reg: Registry, env: Envelope, lib: JwtLibrary, now: real): (r: Option<Claims>)
    ensures !Present(env.extensionId) || !Present(env.instanceId) || !Present(env.token) ==> r.None?
    ensures (Present(env.extensionId) && Present(env.instanceId)
             && !PairingManager.IsAuthorized(reg, env.extensionId.value, env.instanceId.value)) ==> r.None?
    ensures r.Some? ==>
              var key := PairingManager.InstanceKey(env.extensionId.value, env.instanceId.value);
              && Present(env.token)
              && key in reg.authorized
              && VerifyJws(lib, env.token.value, reg.authorized[key].publicKey, now) == r
              && Get(r.value, "instance_id") == Str(env.instanceId.value)
    ensures (&& Present(env.extensionId) && Present(env.instanceId) && Present(env.token)
             && PairingManager.InstanceKey(env.extensionId.value, env.instanceId.value) in reg.authorized
             && var pk := reg.authorized[PairingManager.InstanceKey(env.extensionId.value, env.instanceId.value)].publicKey;
             && Truthy(pk)
             && var p := VerifyJws(lib, env.token.value, pk, now);
             && p.Some? && |p.value| > 0 && Get(p.value, "instance_id") == Str(env.instanceId.value)) ==> r.Some?
  {
    if !Present(env.extensionId) || !Present(env.instanceId) || !Present(env.token) then None
    else
      var ext := env.extensionId.value;
      var inst := env.instanceId.value;
      if !PairingManager.IsAuthorized(reg, ext, inst) then None
      else match PairingManager.GetPublicKey(reg, ext, inst)
        case None => None
        case Some(pk) =>
          if !Truthy(pk) then None
          else match VerifyJws(lib, env.token.value, pk, now)
            case None => None
            case Some(payload) =>
              if !Truthy(Obj(payload)) then None
              else if Get(payload, "instance_id") != Str(inst) then None
              else Some(payload)
  }

  /**
   * Revocation takes effect on the very next message: whatever token it
   * carries, a message from the revoked instance is rejected.
   */
  lemma RevocationBlocksEveryToken(reg: Registry, env: Envelope, lib: JwtLibrary, now: real)
    requires Present(env.extensionId) && Present(env.instanceId)
    ensures VerifyMessage(PairingManager.RevokeInstance(reg, env.extensionId.value, env.instanceId.value).0,
                          env, lib, now).None?
  {
  }

  // ---------------------------------------------------------------------
  // Handshake
  // ---------------------------------------------------------------------

  datatype HandshakeStep =
    | HandshakeRejected
    | HandshakeAccepted
    | AwaitingApproval(key: InstanceKey, ticket: nat)

  datatype Step = Step(ctrl: Controller, effects: seq<Effect>, handshake: Option<HandshakeStep>)

  function MissingField(conn: ConnId, what: string): Effect {
    Send(conn, ErrorReply("missing_field", "Missing " + what + " in handshake"))
  }

  /**
   * The reply the handshake's validation sends, if any of its checks fails:
   * the fields are checked in the order extension id, instance id, public
   * key, and the key's format last.
   */
  function HandshakeValidation(env: Envelope, lib: JwtLibrary, conn: ConnId): (r: Option<Effect>)
    ensures r.None? <==> && Present(env.extensionId) && Present(env.instanceId) && Truthy(env.publicKey)
                         && ValidatePublicKey(lib, env.publicKey)
    ensures r.Some? ==> r.value.Send? && r.value.conn == conn && r.value.reply.ErrorReply?
    ensures !Present(env.extensionId) ==> r == Some(MissingField(conn, "extension_id"))
    ensures Present(env.extensionId) && !Present(env.instanceId) ==> r == Some(MissingField(conn, "instance_id"))
    ensures Present(env.extensionId) && Present(env.instanceId) && !Truthy(env.publicKey) ==>
              r == Some(MissingField(conn, "public_key"))
    ensures Present(env.extensionId) && Present(env.instanceId) && Truthy(env.publicKey)
            && !ValidatePublicKey(lib, env.publicKey) ==>
              r == Some(Send(conn, ErrorReply("invalid_key", "Invalid public key format")))
  {
    if !Present(env.extensionId) then Some(MissingField(conn, "extension_id"))
    else if !Present(env.instanceId) then Some(MissingField(conn, "instance_id"))
    else if !Truthy(env.publicKey) then Some(MissingField(conn, "public_key"))
    else if !ValidatePublicKey(lib, env.publicKey) then
      Some(Send(conn, ErrorReply("invalid_key", "Invalid public key format")))
    else None
  }

  /** The controller once `conn` is the trusted connection of `key`. */
  function Activate(c: Controller, conn: ConnId, key: InstanceKey): Controller {
    c.(extensionId := Some(key.extensionId), instanceId := Some(key.instanceId),
       activeConnection := Some(conn), connected := true)
  }

  /**
   * `_handle_handshake` up to the approval wait: validate the fields in
   * order, record the pairing request, and either accept an authorized
   * instance at once or file an approval request and report it pending.
   */
  function HandleHandshake(c: Controller, conn: ConnId, env: Envelope, lib: JwtLibrary, now: real): (s: Step)
    ensures s.handshake.Some?
    ensures HandshakeValidation(env, lib, conn).Some? ==>
              s == Step(c, [HandshakeValidation(env, lib, conn).value], Some(HandshakeRejected))
    ensures HandshakeValidation(env, lib, conn).None? ==>
              && s.handshake != Some(HandshakeRejected)
              && (s.handshake == Some(HandshakeAccepted)
                  <==> PairingManager.IsAuthorized(c.pairing, env.extensionId.value, env.instanceId.value))
    ensures s.handshake == Some(HandshakeAccepted) ==>
              && s.ctrl == Activate(c, conn, PairingManager.InstanceKey(env.extensionId.value, env.instanceId.value))
              && s.effects == [Send(conn, HandshakeSuccess("Already authorized"))]
    ensures s.handshake.value.AwaitingApproval? ==>
              var key := PairingManager.InstanceKey(env.extensionId.value, env.instanceId.value);
              var reg := PairingManager.RequestPairing(c.pairing, env.extensionId.value, env.instanceId.value,
                                                       env.publicKey, env.metadata, now).0;
              && s.handshake.value == AwaitingApproval(key, c.nextTicket)
              && key in s.ctrl.pairing.pending
              && s.ctrl == c.(pairing := reg,
                              pendingApproval := c.pendingApproval[key := Future(c.nextTicket, Waiting)],
                              nextTicket := c.nextTicket + 1)
              && s.effects == [Send(conn, HandshakePending)]
    ensures Inv(c) ==> Inv(s.ctrl)
  {
    match HandshakeValidation(env, lib, conn)
    case Some(err) => Step(c, [err], Some(HandshakeRejected))
    case None =>
      var ext := env.extensionId.value;
      var inst := env.instanceId.value;
      var (reg, req) := PairingManager.RequestPairing(c.pairing, ext, inst, env.publicKey, env.metadata, now);
      var c1 := c.(pairing := reg);
      if PairingManager.IsAuthorized(reg, ext, inst) then
        Step(Activate(c1, conn, PairingManager.InstanceKey(ext, inst)),
             [Send(conn, HandshakeSuccess("Already authorized"))], Some(HandshakeAccepted))
      else
        var (c2, approval) := RequestApproval(c1, req);
        Step(c2, [Send(conn, HandshakePending)], Some(AwaitingApproval(PairingManager.KeyOf(req), approval.ticket)))
  }

  /** What the approval wait ended with. */
  datatype ApprovalOutcome = Approved | Denied | TimedOut

  /**
   * The rest of `_handle_handshake`: an approval makes `conn` the active
   * connection; a denial or a timeout is reported and trusts nothing (a
   * timeout cancels the waiting future if it is still filed).
   */
  function CompleteHandshake(c: Controller, conn: ConnId, key: InstanceKey, ticket: nat, outcome: ApprovalOutcome): (s: Step)
    ensures s.handshake == Some(if outcome == Approved then HandshakeAccepted else HandshakeRejected)
    ensures outcome == Approved ==>
              s.ctrl == Activate(c, conn, key) && s.effects == [Send(conn, HandshakeSuccess("Pairing approved"))]
    ensures outcome != Approved ==>
              && s.ctrl == c.(pendingApproval := s.ctrl.pendingApproval)
              && s.effects == [Send(conn, if outcome == Denied then HandshakeDenied else HandshakeTimeout)]
    ensures outcome == Denied ==> s.ctrl == c
    ensures outcome == TimedOut ==>
              && s.ctrl.pendingApproval.Keys == c.pendingApproval.Keys
              && (forall k :: k in c.pendingApproval && k != key ==> s.ctrl.pendingApproval[k] == c.pendingApproval[k])
              && (key in c.pendingApproval ==>
                    s.ctrl.pendingApproval[key]
                      == if c.pendingApproval[key].ticket == ticket then Future(ticket, Cancelled) else c.pendingApproval[key])
    ensures Inv(c) ==> Inv(s.ctrl)
  {
    match outcome
    case Approved =>
      Step(Activate(c, conn, key), [Send(conn, HandshakeSuccess("Pairing approved"))], Some(HandshakeAccepted))
    case Denied =>
      Step(c, [Send(conn, HandshakeDenied)], Some(HandshakeRejected))
    case TimedOut =>
      var pa := if key in c.pendingApproval && c.pendingApproval[key].ticket == ticket
                then c.pendingApproval[key := Future(ticket, Cancelled)] else c.pendingApproval;
      Step(c.(pendingApproval := pa), [Send(conn, HandshakeTimeout)], Some(HandshakeRejected))
  }

  /** A future cancelled by a timeout is never resolved by a later approval. */
  lemma TimedOutRequestIsNotResolved(c: Controller, conn: ConnId, key: InstanceKey, ticket: nat)
    requires key in c.pendingApproval && c.pendingApproval[key].ticket == ticket
    ensures var s := CompleteHandshake(c, conn, key, ticket, TimedOut);
            ApproveInstance(s.ctrl, key.extensionId, key.instanceId).1 == None
  {
  }

  // ---------------------------------------------------------------------
  // Authenticated messages
  // ---------------------------------------------------------------------

  /**
   * `_handle_state_update`: the known fields present in `data` are copied;
   * the others keep their values; unknown keys are ignored.
   */
  function MergeState(s: MeetingState, data: Object): (s': MeetingState)
    ensures forall f :: f in StateFields ==> Field(s', f) == GetOr(data, f, Field(s, f))
  {
    MeetingState(
      GetOr(data, "mic_enabled", s.micEnabled),
      GetOr(data, "camera_enabled", s.cameraEnabled),
      GetOr(data, "hand_raised", s.handRaised),
      GetOr(data, "in_meeting", s.inMeeting),
      GetOr(data, "meeting_id", s.meetingId),
      GetOr(data, "meeting_name", s.meetingName),
      GetOr(data, "participant_count", s.participantCount))
  }

  /** The seven wire names determine the whole state. */
  lemma {:induction false} FieldsDetermineState(a: MeetingState, b: MeetingState)
    requires forall f :: f in StateFields ==> Field(a, f) == Field(b, f)
    ensures a == b
  {
    assert Field(a, "mic_enabled") == Field(b, "mic_enabled");
    assert Field(a, "camera_enabled") == Field(b, "camera_enabled");
    assert Field(a, "hand_raised") == Field(b, "hand_raised");
    assert Field(a, "in_meeting") == Field(b, "in_meeting");
    assert Field(a, "meeting_id") == Field(b, "meeting_id");
    assert Field(a, "meeting_name") == Field(b, "meeting_name");
    assert Field(a, "participant_count") == Field(b, "participant_count");
  }

  /** Keys outside the seven state fields never influence the merge. */
  lemma UnknownFieldsIgnored(s: MeetingState, data: Object, extra: Object)
    requires extra.Keys !! StateFields
    ensures MergeState(s, data + extra) == MergeState(s, data)
  {
    FieldsDetermineState(MergeState(s, data + extra), MergeState(s, data));
  }

  /** A report of all seven fields replaces the state, whatever it was. */
  lemma FullReportReplacesState(s: MeetingState, t: MeetingState, data: Object)
    requires forall f :: f in StateFields ==> f in data && data[f] == Field(t, f)
    ensures MergeState(s, data) == t
  {
    FieldsDetermineState(MergeState(s, data), t);
  }

  /** `_handle_message`: handshakes bypass the gate; everything else must pass it and match its type. */
  function HandleMessage(c: Controller, conn: ConnId, env: Envelope, lib: JwtLibrary, now: real): (s: Step)
    ensures env.msgType == Some("handshake") ==> s == HandleHandshake(c, conn, env, lib, now)
    ensures env.msgType != Some("handshake") ==>
              && s.handshake.None?
              && s.ctrl == c.(state := s.ctrl.state)
    ensures env.msgType != Some("handshake") && VerifyMessage(c.pairing, env, lib, now).None? ==>
              s == Step(c, [Send(conn, ErrorReply("not_authorized", "Invalid signature or not authorized"))], None)
    ensures env.msgType != Some("handshake") && VerifyMessage(c.pairing, env, lib, now).Some?
            && Get(VerifyMessage(c.pairing, env, lib, now).value, "type") != TypeValue(env) ==>
              s == Step(c, [Send(conn, ErrorReply("type_mismatch", "Message type mismatch"))], None)
    ensures env.msgType in {Some("state"), Some("heartbeat")} && VerifyMessage(c.pairing, env, lib, now).Some?
            && Get(VerifyMessage(c.pairing, env, lib, now).value, "type") == TypeValue(env) ==>
              var st := MergeState(c.state, env.data);
              s == Step(c.(state := st),
                        if env.msgType == Some("state") then [Notify(st)] else [Notify(st), Send(conn, HeartbeatAck)],
                        None)
    ensures env.msgType !in {Some("handshake"), Some("state"), Some("heartbeat")}
            && VerifyMessage(c.pairing, env, lib, now).Some?
            && Get(VerifyMessage(c.pairing, env, lib, now).value, "type") == TypeValue(env) ==>
              s == Step(c, [], None)
    ensures s.ctrl.state != c.state ==>
              && env.msgType in {Some("state"), Some("heartbeat")}
              && VerifyMessage(c.pairing, env, lib, now).Some?
              && Get(VerifyMessage(c.pairing, env, lib, now).value, "type") == TypeValue(env)
              && s.ctrl.state == MergeState(c.state, env.data)
    ensures Inv(c) ==> Inv(s.ctrl)
  {
    if env.msgType == Some("handshake") then HandleHandshake(c, conn, env, lib, now)
    else match VerifyMessage(c.pairing, env, lib, now)
      case None =>
        Step(c, [Send(conn, ErrorReply("not_authorized", "Invalid signature or not authorized"))], None)
      case Some(payload) =>
        if Get(payload, "type") != TypeValue(env) then
          Step(c, [Send(conn, ErrorReply("type_mismatch", "Message type mismatch"))], None)
        else if env.msgType == Some("state") then
          var st := MergeState(c.state, env.data);
          Step(c.(state := st), [Notify(st)], None)
        else if env.msgType == Some("heartbeat") then
          var st := MergeState(c.state, env.data);
          Step(c.(state := st), [Notify(st), Send(conn, HeartbeatAck)], None)
        else
          Step(c, [], None)
  }

  /** After a revocation, no message of that instance other than a handshake can change the state. */
  lemma RevokedInstanceCannotUpdateState(c: Controller, conn: ConnId, env: Envelope, lib: JwtLibrary, now: real)
    requires Present(env.extensionId) && Present(env.instanceId)
    requires env.msgType != Some("handshake")
    ensures var c1 := RevokeInstance(c, env.extensionId.value, env.instanceId.value).ctrl;
            HandleMessage(c1, conn, env, lib, now).ctrl == c1
  {
    RevocationBlocksEveryToken(c.pairing, env, lib, now);
  }

  // ---------------------------------------------------------------------
  // Connection end and commands
  // ---------------------------------------------------------------------

  /**
   * The cleanup when a connection ends: closing the active connection clears
   * the identity and resets the state (and tells the listeners); closing
   * any other connection changes nothing.
   */
  function CloseConnection(c: Controller, conn: ConnId): (s: Step)
    ensures c.activeConnection != Some(conn) ==> s == Step(c, [], None)
    ensures c.activeConnection == Some(conn) ==>
              && s.ctrl.activeConnection.None? && s.ctrl.extensionId.None? && s.ctrl.instanceId.None?
              && !s.ctrl.connected
              && s.ctrl.state == DefaultState
              && s.ctrl.pairing == c.pairing && s.ctrl.pendingApproval == c.pendingApproval
              && s.effects == [Notify(DefaultState)]
    ensures Inv(c) ==> Inv(s.ctrl)
  {
    if c.activeConnection == Some(conn) then
      var c' := c.(activeConnection := None, extensionId := None, instanceId := None,
                   connected := false, state := DefaultState);
      Step(c', [Notify(DefaultState)], None)
    else Step(c, [], None)
  }

  /**
   * `send_command`: nothing is sent without an active connection; otherwise
   * the command goes to it, and the answer is whether the transport took it.
   */
  function SendCommand(c: Controller, action: string, data: Option<Object>, transportOk: bool): (res: (bool, seq<Effect>))
    ensures c.activeConnection.None? ==> res == (false, [])
    ensures res.0 <==> c.activeConnection.Some? && transportOk
    ensures res.0 ==>
              res.1 == [Send(c.activeConnection.value,
                             Command(action, if data.Some? then data.value else map[]))]
    ensures !res.0 ==> res.1 == []
  {
    match c.activeConnection
    case None => (false, [])
    case Some(conn) =>
      if transportOk then (true, [Send(conn, Command(action, if data.Some? then data.value else map[]))])
      else (false, [])
  }

  /** Once the active connection closes, no command is sent until another handshake succeeds. */
  lemma CommandsStopAfterClose(c: Controller, conn: ConnId, action: string, data: Option<Object>, transportOk: bool)
    requires c.activeConnection == Some(conn)
    ensures SendCommand(CloseConnection(c, conn).ctrl, action, data, transportOk) == (false, [])
  {
  }

  /** After a handshake is accepted, commands go to the connection that made it. */
  lemma CommandsGoToAcceptedConnection(c: Controller, conn: ConnId, env: Envelope, lib: JwtLibrary, now: real,
                                       action: string)
    requires HandleHandshake(c, conn, env, lib, now).handshake == Some(HandshakeAccepted)
    ensures SendCommand(HandleHandshake(c, conn, env, lib, now).ctrl, action, None, true)
              == (true, [Send(conn, Command(action, map[]))])
  {
  }
}

=== FILE: mixins.dfy ===
/** The tri-state of a meeting control and the toggle that flips it. */
module Mixins {
  import opened Wrappers

  /** `State(IntEnum)`: UNKNOWN = -1, DISABLED = 0, ENABLED = 1. */
  datatype State = Unknown | Disabled | Enabled

  function ToInt(s: State): int {
    match s
    case Unknown => -1
    case Disabled => 0
    case Enabled => 1
  }

  /** `State(val)`: the member with that value, or a raise for any other integer. */
  function FromInt(v: int): (s: Option<State>)
    ensures s.Some? <==> v in {-1, 0, 1}
    ensures s.Some? ==> ToInt(s.value) == v
  {
    if v == -1 then Some(Unknown)
    else if v == 0 then Some(Disabled)
    else if v == 1 then Some(Enabled)
    else None
  }

  /** The integer values of the members are exactly -1, 0 and 1, one each. */
  lemma StateValues(s: State)
    ensures ToInt(s) in {-1, 0, 1}
    ensures FromInt(ToInt(s)) == Some(s)
  {
  }

  datatype Mixin = Mixin(currentState: State)

  /** A fresh mixin starts UNKNOWN. */
  const FreshMixin := Mixin(Unknown)

  datatype SetError = NotAState(value: int)

  /**
   * The `current_state` setter: a member value is stored as that member;
   * any other integer raises and nothing is stored.
   */
  function SetCurrentState(m: Mixin, v: int): (r: Result<Mixin, SetError>)
    ensures r.Ok? <==> v in {-1, 0, 1}
    ensures r.Ok? ==> ToInt(r.value.currentState) == v
    ensures r.Err? ==> r.error == NotAState(v)
  {
    match FromInt(v)
    case Some(s) => Ok(Mixin(s))
    case None => Err(NotAState(v))
  }

  datatype ToggleError = CannotToggleUnknown

  /**
   * `next_state` of the toggle mixin: DISABLED and ENABLED swap; UNKNOWN
   * raises. The mixin itself is not changed.
   */
  function NextState(m: Mixin): (r: Result<State, ToggleError>)
    ensures r.Err? <==> m.currentState == Unknown
    ensures r.Ok? ==> r.value != Unknown && r.value != m.currentState
  {
    match m.currentState
    case Unknown => Err(CannotToggleUnknown)
    case Disabled => Ok(Enabled)
    case Enabled => Ok(Disabled)
  }

  /** Toggling twice from a known state returns to it. */
  lemma ToggleIsInvolution(m: Mixin)
    requires m.currentState != Unknown
    ensures NextState(m).Ok?
    ensures NextState(Mixin(NextState(m).value)) == Ok(m.currentState)
  {
  }

  /** Reading back after a successful set yields the value set. */
  lemma SetThenRead(m: Mixin, s: State)
    ensures SetCurrentState(m, ToInt(s)) == Ok(Mixin(s))
  {
  }
}

=== FILE: pairing_manager.dfy ===
/**
 * The host's pairing registry: pending pairing requests and authorized
 * browser-extension instances, both keyed by (extension id, instance id),
 * plus the key encoding used by the registry's storage file.
 */
module PairingManager {
  import opened Wrappers
  import opened Json

  datatype InstanceKey = InstanceKey(extensionId: string, instanceId: string)

  /** A pairing request; `publicKey` is a JWK object and `timestamp` is in seconds. */
  datatype PairingRequest = PairingRequest(
    extensionId: string,
    instanceId: string,
    publicKey: Value,
    metadata: Value,
    timestamp: real)

  function KeyOf(req: PairingRequest): InstanceKey {
    InstanceKey(req.extensionId, req.instanceId)
  }

  datatype Registry = Registry(
    pending: map<InstanceKey, PairingRequest>,
    authorized: map<InstanceKey, PairingRequest>)

  const EmptyRegistry := Registry(map[], map[])

  /** Every entry is stored under its own key. */
  ghost predicate WellKeyed(m: map<InstanceKey, PairingRequest>) {
    forall k :: k in m ==> KeyOf(m[k]) == k
  }

  /** No key is both pending and authorized, and every record sits under its own key. */
  ghost predicate Valid(r: Registry) {
    && r.pending.Keys !! r.authorized.Keys
    && WellKeyed(r.pending)
    && WellKeyed(r.authorized)
  }

  lemma EmptyRegistryValid()
    ensures Valid(EmptyRegistry)
  {
  }

  /**
   * `request_pairing`: an authorized key gets its stored record back and the
   * registry is untouched; any other key gets a fresh pending request, which
   * replaces an older pending one.
   */
  function RequestPairing(r: Registry, ext: string, inst: string, publicKey: Value, metadata: Value, now: real)
    : (res: (Registry, PairingRequest))
    ensures InstanceKey(ext, inst) in r.authorized ==>
              res.0 == r && res.1 == r.authorized[InstanceKey(ext, inst)]
    ensures InstanceKey(ext, inst) !in r.authorized ==>
              && res.0.authorized == r.authorized
              && res.0.pending.Keys == r.pending.Keys + {InstanceKey(ext, inst)}
              && res.0.pending[InstanceKey(ext, inst)] == res.1
              && res.1 == PairingRequest(ext, inst, publicKey, metadata, now)
              && (forall k :: k in r.pending && k != InstanceKey(ext, inst) ==> res.0.pending[k] == r.pending[k])
    ensures Valid(r) ==> Valid(res.0)
  {
    var key := InstanceKey(ext, inst);
    if key in r.authorized then
      (r, r.authorized[key])
    else
      var req := PairingRequest(ext, inst, publicKey, metadata, now);
      (r.(pending := r.pending[key := req]), req)
  }

  /**
   * `approve_instance`: False and no change when the key is not pending;
   * otherwise the request moves, unchanged, from pending to authorized.
   */
  function ApproveInstance(r: Registry, ext: string, inst: string): (res: (Registry, bool))
    ensures res.1 <==> InstanceKey(ext, inst) in r.pending
    ensures !res.1 ==> res.0 == r
    ensures res.1 ==>
              && res.0.pending.Keys == r.pending.Keys - {InstanceKey(ext, inst)}
              && res.0.authorized.Keys == r.authorized.Keys + {InstanceKey(ext, inst)}
              && res.0.authorized[InstanceKey(ext, inst)] == r.pending[InstanceKey(ext, inst)]
              && (forall k :: k in res.0.pending ==> res.0.pending[k] == r.pending[k])
              && (forall k :: k in r.authorized && k != InstanceKey(ext, inst) ==> res.0.authorized[k] == r.authorized[k])
    ensures Valid(r) ==> Valid(res.0)
  {
    var key := InstanceKey(ext, inst);
    if key !in r.pending then
      (r, false)
    else
      (Registry(r.pending - {key}, r.authorized[key := r.pending[key]]), true)
  }

  /**
   * `deny_instance`: only the pending entry is dropped; the authorized map is
   * never touched, so a denied instance may simply ask again.
   */
  function DenyInstance(r: Registry, ext: string, inst: string): (res: (Registry, bool))
    ensures res.1 <==> InstanceKey(ext, inst) in r.pending
    ensures res.0.authorized == r.authorized
    ensures res.0.pending.Keys == r.pending.Keys - {InstanceKey(ext, inst)}
    ensures forall k :: k in res.0.pending ==> res.0.pending[k] == r.pending[k]
    ensures Valid(r) ==> Valid(res.0)
  {
    var key := InstanceKey(ext, inst);
    if key !in r.pending then (r, false)
    else (r.(pending := r.pending - {key}), true)
  }

  /**
   * `revoke_instance`: the authorized record is deleted outright (no
   * "revoked" marker is kept); pending requests are untouched.
   */
  function RevokeInstance(r: Registry, ext: string, inst: string): (res: (Registry, bool))
    ensures res.1 <==> InstanceKey(ext, inst) in r.authorized
    ensures res.0.pending == r.pending
    ensures res.0.authorized.Keys == r.authorized.Keys - {InstanceKey(ext, inst)}
    ensures forall k :: k in res.0.authorized ==> res.0.authorized[k] == r.authorized[k]
    ensures Valid(r) ==> Valid(res.0)
  {
    var key := InstanceKey(ext, inst);
    if key !in r.authorized then (r, false)
    else (r.(authorized := r.authorized - {key}), true)
  }

  /** `is_authorized`: the instance has an authorized record; in a valid registry it is then not pending. */
  function IsAuthorized(r: Registry, ext: string, inst: string): (authorized: bool)
    ensures authorized <==> InstanceKey(ext, inst) in r.authorized
    ensures Valid(r) && authorized ==>
              InstanceKey(ext, inst) !in r.pending && KeyOf(r.authorized[InstanceKey(ext, inst)]) == InstanceKey(ext, inst)
  {
    InstanceKey(ext, inst) in r.authorized
  }

  /** `get_public_key`: the stored key of an authorized instance, else None. */
  function GetPublicKey(r: Registry, ext: string, inst: string): (pk: Option<Value>)
    ensures pk.Some? <==> IsAuthorized(r, ext, inst)
    ensures pk.Some? ==> pk.value == r.authorized[InstanceKey(ext, inst)].publicKey
  {
    var key := InstanceKey(ext, inst);
    if key !in r.authorized then None else Some(r.authorized[key].publicKey)
  }

  /** After a revocation the instance is neither authorized nor has a public key on file. */
  lemma RevokeRemovesTrust(r: Registry, ext: string, inst: string)
    ensures !IsAuthorized(RevokeInstance(r, ext, inst).0, ext, inst)
    ensures GetPublicKey(RevokeInstance(r, ext, inst).0, ext, inst) == None
  {
  }

  /** A denied instance that asks again is pending again, with its new request. */
  lemma DeniedInstanceMayAskAgain(r: Registry, ext: string, inst: string, pk: Value, meta: Value, now: real)
    requires Valid(r)
    requires InstanceKey(ext, inst) in r.pending
    ensures var denied := DenyInstance(r, ext, inst).0;
            var again := RequestPairing(denied, ext, inst, pk, meta, now).0;
            again.pending[InstanceKey(ext, inst)] == PairingRequest(ext, inst, pk, meta, now)
            && !IsAuthorized(again, ext, inst)
  {
  }

  /** A later request for an authorized key cannot replace the public key on file. */
  lemma AuthorizedKeyIsStable(r: Registry, ext: string, inst: string, pk: Value, meta: Value, now: real)
    requires IsAuthorized(r, ext, inst)
    ensures GetPublicKey(RequestPairing(r, ext, inst, pk, meta, now).0, ext, inst) == GetPublicKey(r, ext, inst)
  {
  }

  /**
   * `get_authorized_instances`: all authorized records, or with an extension
   * id only those stored under that extension.
   */
  function GetAuthorizedInstances(r: Registry, ext: Option<string>): (sel: map<InstanceKey, PairingRequest>)
    ensures forall k :: k in sel <==> k in r.authorized && (ext.None? || k.extensionId == ext.value)
    ensures forall k :: k in sel ==> sel[k] == r.authorized[k]
  {
    match ext
    case None => r.authorized
    case Some(e) => map k | k in r.authorized && k.extensionId == e :: r.authorized[k]
  }

  /** The listing holds exactly the authorized instances. */
  lemma ListedIffAuthorized(r: Registry, k: InstanceKey)
    ensures k in GetAuthorizedInstances(r, None) <==> IsAuthorized(r, k.extensionId, k.instanceId)
    ensures k in GetAuthorizedInstances(r, Some(k.extensionId)) <==> IsAuthorized(r, k.extensionId, k.instanceId)
  {
  }

  /** An approved instance appears in its extension's listing; a revoked one appears in no listing. */
  lemma ApprovalAndRevocationShowInListing(r: Registry, ext: string, inst: string, filter: Option<string>)
    requires InstanceKey(ext, inst) in r.pending
    ensures var approved := ApproveInstance(r, ext, inst).0;
            GetAuthorizedInstances(approved, Some(ext))[InstanceKey(ext, inst)] == r.pending[InstanceKey(ext, inst)]
    ensures InstanceKey(ext, inst) !in GetAuthorizedInstances(RevokeInstance(r, ext, inst).0, filter)
  {
  }

  /** `clear_old_pending_requests`'s default maximum age, in seconds. */
  const DefaultMaxAgeSeconds: int := 300

  /** A pending request whose age exceeds the maximum. */
  predicate TooOld(req: PairingRequest, now: real, maxAgeSeconds: int) {
    now - req.timestamp > maxAgeSeconds as real
  }

  lemma MapMinusCard<K, V>(m: map<K, V>, s: set<K>)
    requires s <= m.Keys
    ensures |m - s| == |m| - |s|
  {
    assert (m - s).Keys == m.Keys - s;
    assert |m.Keys - s| == |m.Keys| - |s| by {
      assert m.Keys == (m.Keys - s) + s;
    }
  }

  /**
   * `clear_old_pending_requests`: removes exactly the pending requests older
   * than `maxAgeSeconds` (by default `DefaultMaxAgeSeconds`) and reports how
   * many it removed.
   */
  method ClearOldPendingRequests(r: Registry, now: real, maxAgeSeconds: int) returns (r': Registry, cleared: nat)
    ensures r'.authorized == r.authorized
    ensures forall k :: k in r'.pending <==> k in r.pending && !TooOld(r.pending[k], now, maxAgeSeconds)
    ensures forall k :: k in r'.pending ==> r'.pending[k] == r.pending[k]
    ensures cleared == |r.pending| - |r'.pending|
    ensures Valid(r) ==> Valid(r')
  {
    var toRemove: set<InstanceKey> := {};
    var remaining := r.pending.Keys;
    while remaining != {}
      invariant remaining <= r.pending.Keys
      invariant toRemove <= r.pending.Keys - remaining
      invariant forall k :: k in r.pending && k !in remaining ==> (k in toRemove <==> TooOld(r.pending[k], now, maxAgeSeconds))
      decreases remaining
    {
      var k :| k in remaining;
      if TooOld(r.pending[k], now, maxAgeSeconds) {
        toRemove := toRemove + {k};
      }
      remaining := remaining - {k};
    }
    MapMinusCard(r.pending, toRemove);
    r' := r.(pending := r.pending - toRemove);
    cleared := |toRemove|;
  }

  // ---------------------------------------------------------------------
  // Storage file keys: "ext:inst", split back on the first ':'.
  // ---------------------------------------------------------------------

  /** `f"{ext}:{inst}"`: the two ids joined by a colon. */
  function EncodeKey(k: InstanceKey): (s: string)
    ensures |s| == |k.extensionId| + 1 + |k.instanceId|
    ensures s[..|k.extensionId|] == k.extensionId
    ensures s[|k.extensionId|] == ':'
    ensures s[|k.extensionId| + 1..] == k.instanceId
  {
    k.extensionId + ":" + k.instanceId
  }

  /** Position of the first ':' in `s`, if any. */
  function FirstColon(s: string): (i: Option<nat>)
    ensures i.Some? ==> i.value < |s| && s[i.value] == ':' && ':' !in s[..i.value]
    ensures i.None? ==> ':' !in s
  {
    if |s| == 0 then None
    else if s[0] == ':' then Some(0)
    else match FirstColon(s[1..])
      case None => None
      case Some(j) => Some(j + 1)
  }

  /**
   * `key_str.split(':', 1)` unpacked into two names: without a colon the
   * unpacking raises (None here). A decoded key has a colon-free extension id
   * and encodes back to the same text.
   */
  function DecodeKey(s: string): (r: Option<InstanceKey>)
    ensures r.None? <==> ':' !in s
    ensures r.Some? ==> ':' !in r.value.extensionId && EncodeKey(r.value) == s
  {
    match FirstColon(s)
    case None => None
    case Some(i) =>
      assert s == s[..i] + ":" + s[i + 1..];
      Some(InstanceKey(s[..i], s[i + 1..]))
  }

  /** Encoding then decoding restores the key when the extension id has no ':'. */
  lemma {:induction false} DecodeEncodeKey(k: InstanceKey)
    requires ':' !in k.extensionId
    ensures DecodeKey(EncodeKey(k)) == Some(k)
  {
    var s := EncodeKey(k);
    var n := |k.extensionId|;
    assert s[n] == ':';
    assert s[..n] == k.extensionId;
    assert s[n + 1..] == k.instanceId;
  }

  /** Two keys whose ids share the colon cannot be told apart in the file. */
  lemma ColonInExtensionIdIsAmbiguous()
    ensures EncodeKey(InstanceKey("a:b", "c")) == EncodeKey(InstanceKey("a", "b:c"))
    ensures DecodeKey(EncodeKey(InstanceKey("a:b", "c"))) != Some(InstanceKey("a:b", "c"))
  {
    assert FirstColon("a:b:c") == Some(1);
  }

  /**
   * One section (`pending` or `authorized`) of the storage file, in file
   * order: each entry is its key string and what `PairingRequest.from_dict`
   * makes of its data. `cls(**data)` raises a TypeError (None here) when the
   * data is not a mapping or does not name exactly the record's five fields.
   */
  type StoredSection = seq<(string, Option<PairingRequest>)>

  datatype StoredFile = StoredFile(pending: StoredSection, authorized: StoredSection)

  datatype SectionLoad = SectionLoad(entries: map<InstanceKey, PairingRequest>, failed: bool)

  /** The entry's key has no colon, or its data does not rebuild a record: reading it raises. */
  predicate BadEntry(e: (string, Option<PairingRequest>)) {
    DecodeKey(e.0).None? || e.1.None?
  }

  /**
   * Reading one section: each entry is inserted as it is read; a key without
   * a colon or data that `from_dict` rejects raises and stops the load,
   * keeping what was inserted before it.
   */
  function LoadSection(into: map<InstanceKey, PairingRequest>, section: StoredSection): (res: SectionLoad)
    ensures into.Keys <= res.entries.Keys
    ensures res.failed ==> |section| > 0
    ensures |section| > 0 && BadEntry(section[0]) ==> res == SectionLoad(into, true)
    decreases |section|
  {
    if |section| == 0 then SectionLoad(into, false)
    else match DecodeKey(section[0].0)
      case None => SectionLoad(into, true)
      case Some(k) =>
        match section[0].1
        case None => SectionLoad(into, true)
        case Some(rec) => LoadSection(into[k := rec], section[1..])
  }

  /**
   * `_load`: no file gives an empty registry; a failure in the pending
   * section skips the authorized section.
   */
  function Load(file: Option<StoredFile>): (reg: Registry)
    ensures file.None? ==> reg == EmptyRegistry
    ensures file.Some? ==> reg.pending == LoadSection(map[], file.value.pending).entries
    ensures file.Some? && LoadSection(map[], file.value.pending).failed ==> reg.authorized == map[]
    ensures file.Some? && !LoadSection(map[], file.value.pending).failed ==>
              reg.authorized == LoadSection(map[], file.value.authorized).entries
  {
    match file
    case None => EmptyRegistry
    case Some(f) =>
      var p := LoadSection(map[], f.pending);
      if p.failed then Registry(p.entries, map[])
      else Registry(p.entries, LoadSection(map[], f.authorized).entries)
  }

  /** A section fails to load exactly when one of its entries has a colon-less key or unusable data. */
  lemma {:induction false} LoadSectionFails(into: map<InstanceKey, PairingRequest>, section: StoredSection)
    ensures LoadSection(into, section).failed <==> exists i :: 0 <= i < |section| && BadEntry(section[i])
    decreases |section|
  {
    if |section| > 0 && !BadEntry(section[0]) {
      var k := DecodeKey(section[0].0).value;
      LoadSectionFails(into[k := section[0].1.value], section[1..]);
      assert forall i :: 1 <= i < |section| ==> section[i] == section[1..][i - 1];
      if LoadSection(into, section).failed {
        var j :| 0 <= j < |section[1..]| && BadEntry(section[1..][j]);
        assert BadEntry(section[j + 1]);
      }
    }
  }

  /** A malformed pending entry, by its key or by its data, loses every authorization in the file. */
  lemma MalformedPendingKeyDropsAuthorized(f: StoredFile, i: nat)
    requires i < |f.pending|
    requires ':' !in f.pending[i].0 || f.pending[i].1.None?
    ensures Load(Some(f)).authorized == map[]
  {
    assert BadEntry(f.pending[i]);
    LoadSectionFails(map[], f.pending);
  }

  /**
   * The entries of a section as the registry writes them; `to_dict` names
   * exactly the five fields, so each record rebuilds on reading.
   */
  function EncodeSection(es: seq<(InstanceKey, PairingRequest)>): (section: StoredSection)
    ensures |section| == |es|
    ensures forall i :: 0 <= i < |es| ==> section[i] == (EncodeKey(es[i].0), Some(es[i].1))
  {
    if |es| == 0 then [] else [(EncodeKey(es[0].0), Some(es[0].1))] + EncodeSection(es[1..])
  }

  /** Inserting a list of entries into a map, in order. */
  function InsertAll(into: map<InstanceKey, PairingRequest>, es: seq<(InstanceKey, PairingRequest)>)
    : map<InstanceKey, PairingRequest>
    decreases |es|
  {
    if |es| == 0 then into else InsertAll(into[es[0].0 := es[0].1], es[1..])
  }

  function KeysOf(es: seq<(InstanceKey, PairingRequest)>): set<InstanceKey>
    decreases |es|
  {
    if |es| == 0 then {} else {es[0].0} + KeysOf(es[1..])
  }

  /** `es` lists exactly the entries of `m` (in some order). */
  ghost predicate Lists(es: seq<(InstanceKey, PairingRequest)>, m: map<InstanceKey, PairingRequest>) {
    && (forall i :: 0 <= i < |es| ==> es[i].0 in m && m[es[i].0] == es[i].1)
    && m.Keys <= KeysOf(es)
  }

  predicate ColonFree(es: seq<(InstanceKey, PairingRequest)>) {
    forall i :: 0 <= i < |es| ==> ':' !in es[i].0.extensionId
  }

  /** Loading an encoded section inserts its entries, and never fails, when ids are colon-free. */
  lemma {:induction false} LoadEncodedSection(into: map<InstanceKey, PairingRequest>, es: seq<(InstanceKey, PairingRequest)>)
    requires ColonFree(es)
    ensures LoadSection(into, EncodeSection(es)) == SectionLoad(InsertAll(into, es), false)
    decreases |es|
  {
    if |es| > 0 {
      var section := EncodeSection(es);
      DecodeEncodeKey(es[0].0);
      assert section[1..] == EncodeSection(es[1..]);
      LoadEncodedSection(into[es[0].0 := es[0].1], es[1..]);
    }
  }

  /** Inserting entries that all agree with `m` yields `into` overridden by `m` on the listed keys. */
  lemma {:induction false} InsertAllAgreeing(into: map<InstanceKey, PairingRequest>, es: seq<(InstanceKey, PairingRequest)>,
                                             m: map<InstanceKey, PairingRequest>)
    requires forall i :: 0 <= i < |es| ==> es[i].0 in m && m[es[i].0] == es[i].1
    ensures KeysOf(es) <= m.Keys
    ensures InsertAll(into, es).Keys == into.Keys + KeysOf(es)
    ensures forall k :: k in KeysOf(es) ==> InsertAll(into, es)[k] == m[k]
    ensures forall k :: k in into && k !in KeysOf(es) ==> InsertAll(into, es)[k] == into[k]
    decreases |es|
  {
    KeysOfListed(es, m);
    if |es| > 0 {
      var into' := into[es[0].0 := es[0].1];
      assert forall i :: 0 <= i < |es[1..]| ==> es[1..][i] == es[i + 1];
      InsertAllAgreeing(into', es[1..], m);
    }
  }

  /** A section written from a listing of a map reads back as that map. */
  lemma SectionRoundTrip(es: seq<(InstanceKey, PairingRequest)>, m: map<InstanceKey, PairingRequest>)
    requires Lists(es, m) && ColonFree(es)
    ensures LoadSection(map[], EncodeSection(es)) == SectionLoad(m, false)
  {
    LoadEncodedSection(map[], es);
    InsertAllAgreeing(map[], es, m);
    KeysOfListed(es, m);
    assert InsertAll(map[], es) == m;
  }

  /**
   * Persistence round trip: writing a registry's entries (in any order) and
   * reading the file back restores the registry, provided no extension id
   * contains ':'.
   */
  lemma SaveLoadRoundTrip(r: Registry, pes: seq<(InstanceKey, PairingRequest)>, aes: seq<(InstanceKey, PairingRequest)>)
    requires Lists(pes, r.pending) && Lists(aes, r.authorized)
    requires ColonFree(pes) && ColonFree(aes)
    ensures Load(Some(StoredFile(EncodeSection(pes), EncodeSection(aes)))) == r
  {
    SectionRoundTrip(pes, r.pending);
    SectionRoundTrip(aes, r.authorized);
  }

  lemma {:induction false} KeysOfListed(es: seq<(InstanceKey, PairingRequest)>, m: map<InstanceKey, PairingRequest>)
    requires forall i :: 0 <= i < |es| ==> es[i].0 in m
    ensures KeysOf(es) <= m.Keys
    decreases |es|
  {
    if |es| > 0 {
      assert forall i :: 0 <= i < |es[1..]| ==> es[1..][i] == es[i + 1];
      KeysOfListed(es[1..], m);
    }
  }
}

=== FILE: participant_count.dfy ===
/** The informational key that shows how many people are in the meeting. */
module ParticipantCount {
  import opened Wrappers
  import opened Json
  import ImageManager
  import opened ActionBase

  // ---------------------------------------------------------------------
  // `str(count)`
  // ---------------------------------------------------------------------

  function DigitChar(d: nat): (c: char)
    requires d < 10
    ensures '0' <= c <= '9'
  {
    ('0' as int + d) as char
  }

  /** A non-empty string of decimal digits that starts with '0' only when it is "0". */
  predicate CanonicalDigits(s: string) {
    && |s| >= 1
    && (forall i :: 0 <= i < |s| ==> '0' <= s[i] <= '9')
    && (s[0] == '0' ==> |s| == 1)
  }

  /** The decimal digits of a natural number, without leading zeros. */
  function NatToDecimal(n: nat): (s: string)
    ensures CanonicalDigits(s)
    ensures s[0] == '0' <==> n == 0
    decreases n
  {
    if n < 10 then [DigitChar(n)] else NatToDecimal(n / 10) + [DigitChar(n % 10)]
  }

  /** Reading the label back gives the count. */
  lemma {:induction false} DecimalRoundTrip(n: nat)
    ensures DecimalValue(NatToDecimal(n)) == n
    decreases n
  {
    var s := NatToDecimal(n);
    if n >= 10 {
      var prefix := NatToDecimal(n / 10);
      assert s == prefix + [DigitChar(n % 10)];
      assert s[..|s| - 1] == prefix;
      DecimalRoundTrip(n / 10);
      assert DecimalValue(s) == DecimalValue(prefix) * 10 + n % 10;
    } else {
      assert s[..|s| - 1] == [];
    }
  }

  /** A digit string whose first digit is not '0' denotes a positive number. */
  lemma {:induction false} LeadingDigitPositive(s: string)
    requires |s| >= 1 && (forall i :: 0 <= i < |s| ==> '0' <= s[i] <= '9') && s[0] != '0'
    ensures DecimalValue(s) >= 1
    decreases |s|
  {
    if |s| > 1 {
      var prefix := s[..|s| - 1];
      assert prefix[0] == s[0];
      LeadingDigitPositive(prefix);
    }
  }

  /** A canonical digit string is the one label of the number it denotes: `str` has no other spelling. */
  lemma {:induction false} CanonicalDigitsUnique(s: string, n: nat)
    requires CanonicalDigits(s) && DecimalValue(s) == n
    ensures s == NatToDecimal(n)
    decreases |s|
  {
    var last := s[|s| - 1] as int - '0' as int;
    if |s| == 1 {
      assert DecimalValue(s) == DecimalValue(s[..0]) * 10 + last;
      assert [DigitChar(n)] == s;
    } else {
      var prefix := s[..|s| - 1];
      assert prefix[0] == s[0];
      LeadingDigitPositive(prefix);
      assert CanonicalDigits(prefix);
      assert n == DecimalValue(prefix) * 10 + last;
      assert n / 10 == DecimalValue(prefix) && n % 10 == last;
      CanonicalDigitsUnique(prefix, n / 10);
      assert s == prefix + [s[|s| - 1]];
    }
  }

  /** `str(count)` for any integer count: a minus sign before the digits of a negative number. */
  function IntToDecimal(n: int): (s: string)
    ensures n >= 0 ==> CanonicalDigits(s) && DecimalValue(s) == n
    ensures n < 0 ==> |s| >= 2 && s[0] == '-' && CanonicalDigits(s[1..]) && s[1] != '0' && DecimalValue(s[1..]) == -n
  {
    if n < 0 then
      var digits := NatToDecimal(-n);
      DecimalRoundTrip(-n);
      assert ("-" + digits)[1..] == digits;
      "-" + digits
    else
      DecimalRoundTrip(n);
      NatToDecimal(n)
  }

  /** Any string spelled like `str(n)` (an optional '-', then canonical digits denoting n) is `str(n)`. */
  lemma IntToDecimalUnique(s: string, n: int)
    requires n >= 0 ==> CanonicalDigits(s) && DecimalValue(s) == n
    requires n < 0 ==> |s| >= 2 && s[0] == '-' && CanonicalDigits(s[1..]) && DecimalValue(s[1..]) == -n
    ensures s == IntToDecimal(n)
  {
    if n >= 0 {
      CanonicalDigitsUnique(s, n);
    } else {
      CanonicalDigitsUnique(s[1..], -n);
      assert s == "-" + s[1..];
    }
  }

  /** `int(str(n)) == n`: Python's `int()` reads every label back as its count. */
  lemma StrIntRoundTrip(n: int)
    ensures ParseInt(IntToDecimal(n)) == Some(n)
  {
    var s := IntToDecimal(n);
    if n >= 0 {
      ParseIntDigits(s);
    } else {
      var d := s[1..];
      assert !IsSpace(s[0]) && !IsSpace(s[|s| - 1]);
      assert TrimStart(s) == s;
      assert Strip(s) == s;
      ParseDigitsPlain(d);
    }
  }

  /** The digit count of a natural number, by magnitude. */
  lemma {:induction false} DigitCount(n: nat)
    ensures |NatToDecimal(n)| == 1 <==> n < 10
    ensures |NatToDecimal(n)| == 2 <==> 10 <= n < 100
    ensures |NatToDecimal(n)| == 3 <==> 100 <= n < 1000
    ensures |NatToDecimal(n)| >= 4 <==> n >= 1000
  {
    if n >= 10 {
      DigitCount(n / 10);
      assert |NatToDecimal(n)| == |NatToDecimal(n / 10)| + 1;
    }
  }

  // ---------------------------------------------------------------------
  // Drawing
  // ---------------------------------------------------------------------

  /** `show_count`'s font size: smaller as the number gets longer. */
  function FontSize(count: int): (size: nat)
    ensures 16 <= size <= 22 && size % 2 == 0
    ensures count < 10 ==> size == 22
    ensures count >= 1000 ==> size == 16
  {
    if count >= 1000 then 16
    else if count >= 100 then 18
    else if count >= 10 then 20
    else 22
  }

  /** A larger count never gets a larger font. */
  lemma FontSizeNonIncreasing(a: int, b: int)
    requires a <= b
    ensures FontSize(b) <= FontSize(a)
  {
  }

  /** For a natural count the font size is fixed by the number of digits in the label. */
  lemma FontSizeByDigits(n: nat)
    ensures var len := |NatToDecimal(n)|;
            FontSize(n) == (if len == 1 then 22 else if len == 2 then 20 else if len == 3 then 18 else 16)
  {
    DigitCount(n);
  }

  /**
   * Whether `show_count`'s comparisons `count >= 1000` and so on go through:
   * integers and booleans compare with integers; a string, a list or an
   * object raises `TypeError`.
   */
  predicate Comparable(count: Value) {
    count.Num? || count.Bool?
  }

  /** The number a comparable count compares as (`True` is 1, `False` is 0). */
  function NumericValue(count: Value): int
    requires Comparable(count)
  {
    match count
    case Num(n) => n
    case Bool(b) => if b then 1 else 0
  }

  /** `str(count)` for a comparable count. */
  function CountText(count: Value): string
    requires Comparable(count)
  {
    match count
    case Num(n) => IntToDecimal(n)
    case Bool(b) => if b then "True" else "False"
  }

  /** What `show_count` drew, and whether it raised before the label. */
  datatype Shown = Shown(draws: seq<Draw>, raised: bool)

  /**
   * `show_count`: the colour participants picture at 0.75, then the count as
   * its label; a count that does not compare with integers raises after the
   * picture was set.
   */
  function ShowCount(images: ImageManager.Manager, count: Value): (res: Shown)
    ensures var media := MediaIfAny(ImageManager.GetImage(images, "participants", ImageManager.Regular), 0.75);
            && (res.raised <==> !Comparable(count))
            && (res.raised ==> res.draws == media)
            && (!res.raised ==>
                  && |res.draws| >= 1
                  && res.draws[..|res.draws| - 1] == media
                  && res.draws[|res.draws| - 1] == SetBottomLabel(CountText(count), FontSize(NumericValue(count))))
  {
    var media := MediaIfAny(GetImage(images, "participants", Some(ModeObject(ImageManager.Regular)), None), 0.75);
    if Comparable(count) then
      var draws := media + [SetBottomLabel(CountText(count), FontSize(NumericValue(count)))];
      assert draws[..|draws| - 1] == media;
      Shown(draws, false)
    else Shown(media, true)
  }

  /**
   * The picture `show_disconnected` draws, as written: it hands the mode to
   * `get_image` in the connection-state position, where an `ImageMode` is
   * never one of the two greyed state names, so colour is always chosen.
   */
  function DisconnectedImageAsWritten(images: ImageManager.Manager, connected: bool, inMeeting: bool)
    : (img: Option<ImageManager.Picture>)
    ensures img == ImageManager.GetImage(images, "participants", ImageManager.Regular)
  {
    var mode := if !connected || !inMeeting then ImageManager.Disabled else ImageManager.Regular;
    GetImage(images, "participants", Some(ModeObject(mode)), None)
  }

  /** The picture `show_disconnected` is evidently meant to draw: greyed outside a call. */
  function DisconnectedImage(images: ImageManager.Manager, connected: bool, inMeeting: bool): (img: Option<ImageManager.Picture>)
    ensures img == ImageManager.GetImage(images, "participants",
                     if connected && inMeeting then ImageManager.Regular else ImageManager.Disabled)
  {
    var mode := if !connected || !inMeeting then ImageManager.Disabled else ImageManager.Regular;
    GetImage(images, "participants", None, Some(mode))
  }

  /** With both variants cached, the as-written view and the intended view differ whenever disconnected. */
  lemma DisconnectedImageDiffers(images: ImageManager.Manager, inMeeting: bool)
    requires images.initialized
    requires ImageManager.CacheKey("participants", ImageManager.Regular) in images.cache
    requires ImageManager.CacheKey("participants", ImageManager.Disabled) in images.cache
    requires images.cache[ImageManager.CacheKey("participants", ImageManager.Regular)]
             != images.cache[ImageManager.CacheKey("participants", ImageManager.Disabled)]
    ensures DisconnectedImageAsWritten(images, false, inMeeting) != DisconnectedImage(images, false, inMeeting)
  {
  }

  /**
   * `show_disconnected`, as written: set the participants picture (the
   * colour one, even outside a call, and even when missing); if a count was
   * showing, forget it and show "--".
   */
  function ShowDisconnected(images: ImageManager.Manager, last: Option<Value>, connected: bool, inMeeting: bool)
    : (res: (Option<Value>, seq<Draw>))
    ensures res.0.None?
    ensures |res.1| == (if last.Some? then 2 else 1)
    ensures res.1[0] == SetMedia(ImageManager.GetImage(images, "participants", ImageManager.Regular), 0.9)
    ensures SetBottomLabel("--", 22) in res.1 <==> last.Some?
  {
    (None, [SetMedia(DisconnectedImageAsWritten(images, connected, inMeeting), 0.9)]
             + (if last.Some? then [SetBottomLabel("--", 22)] else []))
  }

  /** `show_disconnected` as evidently intended: the picture of the derived connection state, grey outside a call. */
  function ShowDisconnectedIntended(images: ImageManager.Manager, last: Option<Value>, connected: bool, inMeeting: bool)
    : (res: (Option<Value>, seq<Draw>))
    ensures res.0.None?
    ensures |res.1| == (if last.Some? then 2 else 1)
    ensures res.1[0] == SetMedia(ImageIn(images, "participants", DeriveConnectionState(connected, inMeeting)), 0.9)
    ensures ImageManager.GreyMatchesKey(images.cache) && res.1[0].image.Some? ==>
              (res.1[0].image.value.grey <==> !(connected && inMeeting))
    ensures SetBottomLabel("--", 22) in res.1 <==> last.Some?
  {
    var img := DisconnectedImage(images, connected, inMeeting);
    assert ImageManager.GreyMatchesKey(images.cache) && img.Some? ==> (img.value.grey <==> !(connected && inMeeting)) by {
      if ImageManager.GreyMatchesKey(images.cache) && img.Some? {
        DrawnPictureGreyOutsideCall(images, "participants", DeriveConnectionState(connected, inMeeting));
      }
    }
    (None, [SetMedia(img, 0.9)] + (if last.Some? then [SetBottomLabel("--", 22)] else []))
  }

  /** "--" is written once: a second disconnected view only sets the picture. */
  lemma DashesShownOnce(images: ImageManager.Manager, last: Option<Value>, connected: bool, inMeeting: bool)
    ensures var first := ShowDisconnected(images, last, connected, inMeeting);
            ShowDisconnected(images, first.0, connected, inMeeting).1 == [first.1[0]]
  {
  }

  /** `show_error`: forget the count, set the colour error picture at 0.9 when cached, and show "ERROR". */
  function ShowError(images: ImageManager.Manager): (res: (Option<Value>, seq<Draw>))
    ensures res.0.None?
    ensures |res.1| >= 1
    ensures res.1[..|res.1| - 1] == MediaIfAny(ImageManager.GetImage(images, "error", ImageManager.Regular), 0.9)
    ensures res.1[|res.1| - 1] == SetBottomLabel("ERROR", 12)
  {
    var draws := MediaIfAny(GetImage(images, "error", None, None), 0.9) + [SetBottomLabel("ERROR", 12)];
    assert draws[..|draws| - 1] == MediaIfAny(GetImage(images, "error", None, None), 0.9);
    (None, draws)
  }

  /** Whether a draw list writes the label of an integer count. */
  predicate ShowsCount(draws: seq<Draw>, count: int) {
    SetBottomLabel(IntToDecimal(count), FontSize(count)) in draws
  }

  /**
   * `update_state`: outside a call, or with a None count, the disconnected
   * view; a missing backend or a failing query, the error view; otherwise
   * redraw only when the count changed, remembering it, and fall back to the
   * error view when the count turns out not to compare with integers.
   * `inMeeting` is the truthiness of `get_in_meeting`.
   */
  function UpdateState(images: ImageManager.Manager, last: Option<Value>, connected: bool, inMeeting: bool,
                       count: Probe<Value>): (res: (Option<Value>, seq<Draw>))
    ensures !(connected && inMeeting) || count == Answered(Null) ==>
              res == ShowDisconnected(images, last, connected, inMeeting)
    ensures connected && inMeeting && !count.Answered? ==> res == ShowError(images)
    ensures res.0.Some? ==> count.Answered? && res.0.value == count.value && count.value != Null
    ensures (last.Some? ==> Comparable(last.value)) ==> (res.0.Some? ==> Comparable(res.0.value))
    ensures connected && inMeeting && count.Answered? && count.value != Null ==>
              (res.1 == [] <==> last == Some(count.value))
    ensures connected && inMeeting && count.Answered? && Comparable(count.value) ==> res.0 == Some(count.value)
    ensures connected && inMeeting && count.Answered? && count.value.Num? && last != Some(count.value) ==>
              ShowsCount(res.1, count.value.n)
    ensures connected && inMeeting && count.Answered? && count.value != Null && !Comparable(count.value)
            && last != Some(count.value) ==>
              && res.0.None?
              && res.1 == MediaIfAny(ImageManager.GetImage(images, "participants", ImageManager.Regular), 0.75)
                          + ShowError(images).1
  {
    if !connected || !inMeeting then ShowDisconnected(images, last, connected, inMeeting)
    else match count
      case NoBackend => ShowError(images)
      case Raised => ShowError(images)
      case Answered(v) =>
        if v == Null then ShowDisconnected(images, last, connected, inMeeting)
        else if Some(v) == last then (last, [])
        else
          var shown := ShowCount(images, v);
          if shown.raised then
            var err := ShowError(images);
            (err.0, shown.draws + err.1)
          else (Some(v), shown.draws)
  }

  /** Polling again with the same count draws nothing. */
  lemma CountDrawnOnce(images: ImageManager.Manager, last: Option<Value>, n: int)
    ensures var first := UpdateState(images, last, true, true, Answered(Num(n)));
            UpdateState(images, first.0, true, true, Answered(Num(n))) == (first.0, [])
  {
  }

  /** After the error view or the disconnected view, the next count is drawn again. */
  lemma CountRedrawnAfterErrorOrDisconnect(images: ImageManager.Manager, last: Option<Value>,
                                           connected: bool, inMeeting: bool, n: int)
    ensures ShowsCount(UpdateState(images, ShowError(images).0, true, true, Answered(Num(n))).1, n)
    ensures ShowsCount(UpdateState(images, ShowDisconnected(images, last, connected, inMeeting).0,
                                   true, true, Answered(Num(n))).1, n)
  {
  }

  /** `on_ready`: forget the last count, so the next count is always drawn. */
  function OnReady(images: ImageManager.Manager, connected: bool, inMeeting: bool, count: Probe<Value>)
    : (res: (Option<Value>, seq<Draw>))
    ensures connected && inMeeting && count.Answered? && count.value.Num? ==> ShowsCount(res.1, count.value.n)
    ensures connected && inMeeting && count.Answered? && count.value != Null ==> res.1 != []
  {
    UpdateState(images, None, connected, inMeeting, count)
  }
}

=== FILE: send_reaction.dfy ===
/** The key that sends a chosen emoji reaction. */
module SendReaction {
  import opened Wrappers
  import opened Json
  import ImageManager
  import opened ActionBase

  /** The reaction table, in its declaration order: identifier and emoji. */
  const Reactions: seq<(string, string)> := [
    ("sparkling_heart", "\U{1F496}"),
    ("thumbs_up", "\U{1F44D}"),
    ("celebrate", "\U{1F389}"),
    ("applause", "\U{1F44F}"),
    ("laugh", "\U{1F602}"),
    ("surprised", "\U{1F62E}"),
    ("sad", "\U{1F622}"),
    ("thinking", "\U{1F914}"),
    ("thumbs_down", "\U{1F44E}")
  ]

  const DefaultReaction: string := "thumbs_up"

  /** `list(REACTIONS.keys())`. */
  function Ids(table: seq<(string, string)>): (ids: seq<string>)
    ensures |ids| == |table|
    ensures forall i :: 0 <= i < |table| ==> ids[i] == table[i].0
  {
    if |table| == 0 then [] else [table[0].0] + Ids(table[1..])
  }

  /** The identifiers of the reaction table are the reaction images the image cache preloads. */
  lemma IdsArePreloaded()
    ensures Ids(Reactions) == ImageManager.ReactionIds
  {
  }

  predicate Distinct(ids: seq<string>) {
    forall i, j :: 0 <= i < j < |ids| ==> ids[i] != ids[j]
  }

  /** No two reactions share an identifier: each differs from every other in its first letter or its length. */
  lemma IdsDistinct()
    ensures Distinct(Ids(Reactions))
  {
    IdsArePreloaded();
    var ids := ImageManager.ReactionIds;
    forall i, j | 0 <= i < j < |ids| ensures ids[i] != ids[j] {
      assert ids[i][0] != ids[j][0] || |ids[i]| != |ids[j]|;
    }
  }

  /** `reaction_ids.index(reaction)`: the first position holding the identifier, if any. */
  function IndexOf(ids: seq<string>, id: string): (r: Option<nat>)
    ensures r.Some? <==> id in ids
    ensures r.Some? ==> r.value < |ids| && ids[r.value] == id
    ensures r.Some? ==> forall j :: 0 <= j < r.value ==> ids[j] != id
  {
    if |ids| == 0 then None
    else if ids[0] == id then Some(0)
    else match IndexOf(ids[1..], id)
      case None => None
      case Some(k) => Some(k + 1)
  }

  /** In a list without repeats, every position is found again from its identifier. */
  lemma IndexOfPosition(ids: seq<string>, i: nat)
    requires Distinct(ids)
    requires i < |ids|
    ensures IndexOf(ids, ids[i]) == Some(i)
  {
  }

  /** `compute_state`: the stored reaction, thumbs up by default. */
  function ComputeState(settings: Object): (st: StateDict)
    ensures st.Keys == {"reaction"}
    ensures "reaction" in settings ==> st["reaction"] == settings["reaction"]
    ensures "reaction" !in settings ==> st["reaction"] == Str(DefaultReaction)
  {
    map["reaction" := GetOr(settings, "reaction", Str(DefaultReaction))]
  }

  /** The image name `reaction_<id>` formatted from a reaction value. */
  function ImageName(reaction: Value): Option<string> {
    match reaction
    case Str(id) => Some("reaction_" + id)
    case _ => None
  }

  /**
   * `render_state`: remember the reaction for key presses and draw its
   * `reaction_<id>` picture, in the variant of the connection state, when
   * cached. Only a string reaction names a cached picture.
   */
  function RenderState(images: ImageManager.Manager, state: StateDict, cs: ConnectionState)
    : (res: (Value, seq<Draw>))
    ensures res.0 == GetOr(state, "reaction", Str(DefaultReaction))
    ensures |res.1| <= 1
    ensures |res.1| == 1 <==>
              res.0.Str? && ImageManager.GetImage(images, "reaction_" + res.0.s, VariantFor(cs)).Some?
    ensures |res.1| == 1 ==>
              res.1[0] == SetMedia(ImageManager.GetImage(images, "reaction_" + res.0.s, VariantFor(cs)), 0.8)
    ensures ImageManager.GreyMatchesKey(images.cache) && |res.1| == 1 ==>
              (res.1[0].image.value.grey <==> cs != Connected)
  {
    var reaction := GetOr(state, "reaction", Str(DefaultReaction));
    match ImageName(reaction)
    case Some(name) =>
      var img := ImageIn(images, name, cs);
      assert ImageManager.GreyMatchesKey(images.cache) && img.Some? ==> (img.value.grey <==> cs != Connected) by {
        if ImageManager.GreyMatchesKey(images.cache) && img.Some? {
          DrawnPictureGreyOutsideCall(images, name, cs);
        }
      }
      (reaction, MediaIfAny(img, 0.8))
    case None => (reaction, [])
  }

  /** After initialisation from a readable asset directory, every listed reaction renders its picture in a call. */
  lemma ListedReactionRenders(assetsPath: string, disk: ImageManager.Disk, i: nat)
    requires i < |Reactions|
    requires disk("reactions/" + Reactions[i].0 + ".png") == ImageManager.Readable
    ensures var images := ImageManager.Initialize(ImageManager.Fresh, Some(assetsPath), disk).manager;
            var img := ImageManager.GetImage(images, "reaction_" + Reactions[i].0, ImageManager.Regular);
            var st := FullState(true, Bool(true), ComputeState(map["reaction" := Str(Reactions[i].0)]));
            img.Some? && RenderState(images, st, Connected) == (Str(Reactions[i].0), [SetMedia(img, 0.8)])
  {
    var id := Reactions[i].0;
    IdsArePreloaded();
    assert id == ImageManager.ReactionIds[i];
    ImageManager.ReactionImagesPreloaded(assetsPath, disk, id, ImageManager.Regular);
    var images := ImageManager.Initialize(ImageManager.Fresh, Some(assetsPath), disk).manager;
    var st := FullState(true, Bool(true), ComputeState(map["reaction" := Str(id)]));
    assert GetOr(st, "reaction", Str(DefaultReaction)) == Str(id);
  }

  /**
   * `on_key_down` (`inMeeting` is the truthiness of `get_in_meeting`):
   * outside a meeting, a two-second error; otherwise send the
   * remembered reaction, with a three-second error if that raised or there
   * was no backend to call.
   */
  function OnKeyDown(inMeeting: bool, reaction: Value, call: CallOutcome): (effects: seq<KeyEffect>)
    ensures !inMeeting ==> effects == [ShowError(2.0)]
    ensures Invoke("send_reaction", Some(reaction)) in effects <==> inMeeting && call != NoBackendToCall
    ensures ShowError(3.0) in effects <==> inMeeting && call != CallReturned
    ensures inMeeting && call == CallReturned ==> effects == [Invoke("send_reaction", Some(reaction))]
  {
    if !inMeeting then [ShowError(2.0)]
    else match call
      case NoBackendToCall => [ShowError(3.0)]
      case CallRaised => [Invoke("send_reaction", Some(reaction)), ShowError(3.0)]
      case CallReturned => [Invoke("send_reaction", Some(reaction))]
  }

  /** `load_reaction_config`: the combo-row position of the stored reaction, or no change when unlisted. */
  function LoadReactionConfig(settings: Object): (selected: Option<nat>)
    ensures selected.Some? ==> selected.value < |Reactions|
                               && Str(Reactions[selected.value].0) == GetOr(settings, "reaction", Str(DefaultReaction))
    ensures selected.None? <==> forall i :: 0 <= i < |Reactions| ==> Str(Reactions[i].0) != GetOr(settings, "reaction", Str(DefaultReaction))
  {
    match GetOr(settings, "reaction", Str(DefaultReaction))
    case Str(id) => IndexOf(Ids(Reactions), id)
    case _ => None
  }

  /** With nothing stored, the row shows thumbs up. */
  lemma DefaultSelection()
    ensures LoadReactionConfig(map[]) == Some(1)
  {
    IdsDistinct();
    IndexOfPosition(Ids(Reactions), 1);
  }

  datatype Changed = Changed(reaction: Value, settings: Object, updateRequested: bool)

  /**
   * `on_reaction_changed`: a position inside the table selects that reaction,
   * stores it in the settings and asks for a redraw; any other position
   * changes nothing.
   */
  function OnReactionChanged(selected: int, reaction: Value, settings: Object): (c: Changed)
    ensures 0 <= selected < |Reactions| ==>
              c == Changed(Str(Reactions[selected].0), settings["reaction" := Str(Reactions[selected].0)], true)
    ensures !(0 <= selected < |Reactions|) ==> c == Changed(reaction, settings, false)
  {
    if 0 <= selected < |Reactions| then
      var id := Ids(Reactions)[selected];
      Changed(Str(id), settings["reaction" := Str(id)], true)
    else
      Changed(reaction, settings, false)
  }

  /** Choosing a row and reopening the settings selects the same row again. */
  lemma {:induction false} SelectionRoundTrip(selected: int, reaction: Value, settings: Object)
    requires 0 <= selected < |Reactions|
    ensures LoadReactionConfig(OnReactionChanged(selected, reaction, settings).settings) == Some(selected)
  {
    IdsDistinct();
    IndexOfPosition(Ids(Reactions), selected);
  }

  /** Choosing a row makes the next key press send that row's reaction. */
  lemma SelectionIsSent(images: ImageManager.Manager, selected: int, reaction: Value, settings: Object,
                        connected: bool, call: CallOutcome)
    requires 0 <= selected < |Reactions|
    requires call != NoBackendToCall
    ensures var c := OnReactionChanged(selected, reaction, settings);
            var st := FullState(connected, Bool(true), ComputeState(c.settings));
            var rendered := RenderState(images, st, DeriveConnectionState(connected, true)).0;
            Invoke("send_reaction", Some(Str(Reactions[selected].0))) in OnKeyDown(true, rendered, call)
  {
  }
}

=== FILE: toggle_state_action.dfy ===
/**
 * The ON/OFF key actions (microphone, camera, raised hand): one generic
 * action parameterised by a configuration record, as the three subclasses
 * only bind constants.
 */
module ToggleStateAction {
  import opened Wrappers
  import opened Json
  import ImageManager
  import opened ActionBase

  /** The class attributes a subclass sets; None stands for an attribute left unset. */
  datatype ToggleConfig = ToggleConfig(
    imageOn: Option<string>,
    imageOff: Option<string>,
    stateMethod: Option<string>,
    toggleMethod: Option<string>,
    labelOn: Option<string>,
    labelOff: Option<string>)

  /** The four attributes construction insists on are all set and non-empty. */
  predicate Configured(cfg: ToggleConfig) {
    Present(cfg.imageOn) && Present(cfg.imageOff) && Present(cfg.stateMethod) && Present(cfg.toggleMethod)
  }

  /** Construction: a configuration missing any of the four attributes raises. */
  function Construct(cfg: ToggleConfig): (r: Result<ToggleConfig, string>)
    ensures r.Ok? <==> Configured(cfg)
    ensures r.Ok? ==> r.value == cfg
  {
    if !Present(cfg.imageOn) || !Present(cfg.imageOff) || !Present(cfg.stateMethod) || !Present(cfg.toggleMethod) then
      Err("must define IMAGE_NAME_ON, IMAGE_NAME_OFF, BACKEND_STATE_METHOD, and BACKEND_TOGGLE_METHOD")
    else Ok(cfg)
  }

  const ToggleMic := ToggleConfig(Some("mic_on"), Some("mic_off"), Some("get_mic_enabled"), Some("toggle_microphone"), Some(""), Some(""))
  const ToggleCamera := ToggleConfig(Some("camera_on"), Some("camera_off"), Some("get_camera_enabled"), Some("toggle_camera"), Some(""), Some(""))
  const RaiseHand := ToggleConfig(Some("hand_raised"), Some("hand_lowered"), Some("get_hand_raised"), Some("toggle_hand"), Some(""), Some(""))

  /** The three shipped actions construct, and none of them draws a label. */
  lemma ShippedActionsConstruct()
    ensures Construct(ToggleMic).Ok? && Construct(ToggleCamera).Ok? && Construct(RaiseHand).Ok?
    ensures !Present(ToggleMic.labelOn) && !Present(ToggleMic.labelOff)
  {
    assert Configured(ToggleMic);
    assert Configured(ToggleCamera);
    assert Configured(RaiseHand);
  }

  /** `compute_state`: the backend's answer, or None when there is no backend or the query raised. */
  function ComputeState(answer: Probe<Value>): (st: StateDict)
    ensures st.Keys == {"toggle_enabled"}
    ensures answer.Answered? ==> st["toggle_enabled"] == answer.value
    ensures !answer.Answered? ==> st["toggle_enabled"] == Null
  {
    map["toggle_enabled" := if answer.Answered? then answer.value else Null]
  }

  /** The picture a toggle state names: the error picture when unknown, else ON or OFF by truthiness. */
  function PictureName(cfg: ToggleConfig, enabled: Value): string
    requires Configured(cfg)
  {
    if enabled == Null then "error" else if Truthy(enabled) then cfg.imageOn.value else cfg.imageOff.value
  }

  /** The label a known toggle state would carry. */
  function Caption(cfg: ToggleConfig, enabled: Value): Option<string> {
    if Truthy(enabled) then cfg.labelOn else cfg.labelOff
  }

  /** Whether a draw list sets a picture, and whether it sets a label. */
  predicate DrawsPicture(draws: seq<Draw>) {
    exists i :: 0 <= i < |draws| && draws[i].SetMedia?
  }

  predicate DrawsLabel(draws: seq<Draw>) {
    exists i :: 0 <= i < |draws| && draws[i].SetBottomLabel?
  }

  /**
   * `render_state`: an unknown state (None) shows the error picture and no
   * label; otherwise the ON picture for a truthy state and the OFF picture
   * for a falsy one, each in the variant of the connection state, followed
   * by the state's label when it is non-empty.
   */
  function RenderState(cfg: ToggleConfig, images: ImageManager.Manager, state: StateDict, cs: ConnectionState): (draws: seq<Draw>)
    requires Configured(cfg)
    ensures var enabled := Get(state, "toggle_enabled");
            var img := ImageManager.GetImage(images, PictureName(cfg, enabled), VariantFor(cs));
            && |draws| <= 2
            && (DrawsPicture(draws) <==> img.Some?)
            && (forall i :: 0 <= i < |draws| && draws[i].SetMedia? ==> draws[i] == SetMedia(img, 0.9) && i == 0)
            && (DrawsLabel(draws) <==> enabled != Null && Present(Caption(cfg, enabled)))
            && (forall i :: 0 <= i < |draws| && draws[i].SetBottomLabel? ==>
                  draws[i] == SetBottomLabel(Caption(cfg, enabled).value, 14) && i == |draws| - 1)
    ensures ImageManager.GreyMatchesKey(images.cache) ==>
              forall i :: 0 <= i < |draws| && draws[i].SetMedia? ==> (draws[i].image.value.grey <==> cs != Connected)
  {
    var enabled := Get(state, "toggle_enabled");
    var img := ImageIn(images, PictureName(cfg, enabled), cs);
    assert ImageManager.GreyMatchesKey(images.cache) && img.Some? ==> (img.value.grey <==> cs != Connected) by {
      if ImageManager.GreyMatchesKey(images.cache) && img.Some? {
        DrawnPictureGreyOutsideCall(images, PictureName(cfg, enabled), cs);
      }
    }
    if enabled == Null then
      MediaIfAny(img, 0.9)
    else
      var caption := Caption(cfg, enabled);
      var draws := MediaIfAny(img, 0.9) + (if Present(caption) then [SetBottomLabel(caption.value, 14)] else []);
      assert img.Some? ==> draws[0].SetMedia?;
      assert Present(caption) ==> draws[|draws| - 1].SetBottomLabel?;
      draws
  }

  /** An unknown state, from a missing backend, a failing query or a None answer, draws the error picture alone. */
  lemma UnknownStateShowsError(cfg: ToggleConfig, images: ImageManager.Manager, connected: bool, inMeeting: Value,
                               answer: Probe<Value>)
    requires Configured(cfg)
    requires !answer.Answered? || answer.value == Null
    ensures var cs := DeriveConnectionState(connected, Truthy(inMeeting));
            var draws := RenderState(cfg, images, FullState(connected, inMeeting, ComputeState(answer)), cs);
            && !DrawsLabel(draws)
            && (DrawsPicture(draws) <==> ImageManager.GetImage(images, "error", VariantFor(cs)).Some?)
  {
    var st := FullState(connected, inMeeting, ComputeState(answer));
    assert Get(st, "toggle_enabled") == Null;
  }

  /**
   * `on_key_down`: nothing unless connected and in a meeting and a backend
   * exists; then the toggle is called, and a refresh follows unless it raised.
   * `inMeeting` is the truthiness of `get_in_meeting`.
   */
  function OnKeyDown(cfg: ToggleConfig, connected: bool, inMeeting: bool, call: CallOutcome): (effects: seq<KeyEffect>)
    requires Configured(cfg)
    ensures !connected || !inMeeting ==> effects == []
    ensures Invoke(cfg.toggleMethod.value, None) in effects <==> connected && inMeeting && call != NoBackendToCall
    ensures UpdateRequested in effects <==> connected && inMeeting && call == CallReturned
    ensures forall e :: e in effects ==> !e.ShowError?
  {
    if !connected || !inMeeting then []
    else match call
      case NoBackendToCall => []
      case CallRaised => [Invoke(cfg.toggleMethod.value, None)]
      case CallReturned => [Invoke(cfg.toggleMethod.value, None), UpdateRequested]
  }

  /**
   * The whole tick of a toggle key: compute, merge, and render only on
   * change; the render sees the merged state and the derived connection state.
   */
  function Tick(cfg: ToggleConfig, images: ImageManager.Manager, cache: Option<StateDict>,
                connected: bool, inMeeting: Value, answer: Probe<Value>): (res: (Option<StateDict>, seq<Draw>))
    requires Configured(cfg)
    ensures res.0 == Some(FullState(connected, inMeeting, ComputeState(answer)))
    ensures cache == res.0 ==> res.1 == []
    ensures cache != res.0 ==>
              res.1 == RenderState(cfg, images, res.0.value, DeriveConnectionState(connected, Truthy(inMeeting)))
  {
    var u := UpdateState(cache, connected, inMeeting, ComputeState(answer));
    match u.render
    case None => (u.cache, [])
    case Some(r) => (u.cache, RenderState(cfg, images, r.state, r.connectionState))
  }

  /**
   * Pressing the key in a call and then ticking once the backend reports the
   * flipped flag redraws the key with the other picture.
   */
  lemma {:induction false} PressThenTickShowsOtherPicture(cfg: ToggleConfig, images: ImageManager.Manager,
                                                          inMeeting: Value, on: bool)
    requires Configured(cfg)
    requires Truthy(inMeeting)
    ensures UpdateRequested in OnKeyDown(cfg, true, true, CallReturned)
    ensures var before := Some(FullState(true, inMeeting, ComputeState(Answered(Bool(on)))));
            var draws := Tick(cfg, images, before, true, inMeeting, Answered(Bool(!on))).1;
            var other := ImageManager.GetImage(images, if on then cfg.imageOff.value else cfg.imageOn.value, ImageManager.Regular);
            && (DrawsPicture(draws) <==> other.Some?)
            && (forall i :: 0 <= i < |draws| && draws[i].SetMedia? ==> draws[i].image == other)
  {
    var before := FullState(true, inMeeting, ComputeState(Answered(Bool(on))));
    var after := FullState(true, inMeeting, ComputeState(Answered(Bool(!on))));
    assert before["toggle_enabled"] != after["toggle_enabled"];
    assert Some(before) != Some(after);
    assert Get(after, "toggle_enabled") == Bool(!on);
  }

  /** Construction checks exactly the four attributes: unset labels are accepted, and a built action renders and toggles. */
  lemma ConstructedActionWorks(cfg: ToggleConfig, images: ImageManager.Manager, state: StateDict, cs: ConnectionState)
    requires Construct(cfg).Ok?
    ensures Construct(cfg.(labelOn := None, labelOff := None)).Ok?
    ensures |RenderState(Construct(cfg).value, images, state, cs)| <= 2
    ensures OnKeyDown(Construct(cfg).value, true, true, CallReturned) == [Invoke(cfg.toggleMethod.value, None), UpdateRequested]
  {
  }
}

=== FILE: wrappers.dfy ===
/** Failure-carrying result types shared by every module of the model. */
module Wrappers {

  /** Python's `Optional[T]`: `None` or a present value. */
  datatype Option<+T> = None | Some(value: T)

  /** An operation that either produces a value or raises. */
  datatype Result<+T, +E> = Ok(value: T) | Err(error: E)
}
